=== FILE: README.md ===
# qwen2-ocr in Dafny

A model of the decision logic of qwen2-ocr, a small OCR front end for Qwen2-VL
chat-completion APIs. It has a command-line tool (`ocr_app.py`) and a Flask upload
service (`app.py`). The model covers these parts:

- **Resize rule** (`Resize`). An image that fits the 1024 x 1024 box keeps its size.
  Otherwise both sides are scaled by `min(maxW / w, maxH / h)` and truncated. The ratio is
  an exact fraction.
- **Image references** (`Pipeline`). A source string starting with `http://` or `https://`
  is sent verbatim. Anything else is opened, flattened, shrunk and sent as a
  `data:image/jpeg;base64,` URI. An in-memory page image is sent the same way.
- **Requests** (`Request`). The chat-completion body holds one user message with a text
  part and an `image_url` part. The POST carries a bearer key and a 300-second timeout. In
  a batch the text part is the prompt followed by ` (Page k/N)`.
- **Batch loop** (`Pipeline`). `ocr_multiple_images` and `process_pdf` produce one
  `{page, response}` per input, numbered from 1 in input order. A failed request becomes
  that page's `{error, status_code}` record and the loop goes on. An input that cannot be
  encoded aborts the batch.
- **Text extraction** (`Extract`). `extract_text` reads `choices[0].message.content`; an
  `error` key takes precedence. A missing key or index gives a diagnostic holding the raw
  reply; a `TypeError` escapes.
- **Command line** (`Cli`). It decides which arguments go down the PDF path and turns each
  file's outcome (or exception) into result records. The exit status is 1 when any
  response holds an `error` key.
- **Web layer** (`Web`). This covers the extension whitelist and the model table read from
  the environment. It also covers the ordered checks of `POST /api/ocr`, each of which
  answers before the upload is saved, and the name the upload is saved under. Last are the
  shape of a successful reply and the `GET /api/config` summary.

The world outside the process is a parameter, not code. `Pipeline.Io` holds file
existence, image decoding, Lanczos resampling, JPEG + base64 encoding, PDF backend
availability and rendering, and the HTTP POST (an oracle from request to reply or error).
werkzeug's `secure_filename` is a function parameter of `Web.HandleOcr`. Python exceptions
that propagate are `Failure(str(e))` values. The `TypeError` that `extract_text` does not
catch is the `Raised` outcome.

Three behaviours of the code worth knowing:

- `extract_text` does not recover from every malformed reply. It catches only `KeyError`
  and `IndexError`, so a reply such as `{"choices": 5}` raises `TypeError`
  (`Extract.ExtractText`, `Raised`).
- `pdf_to_images` checks for a PDF backend before checking that the file exists, so with no
  backend a missing file reports the missing library (`Pipeline.BackendCheckedBeforeFile`).
- A very elongated image cannot be sent. A 1 x 3000 page truncates to a 0 x 1024 target,
  which Pillow's `resize` refuses with `ValueError`; that exception aborts a batch
  (`Pipeline.ResizeImage`, `Pipeline.ElongatedPageAbortsBatch`).

Files: `wrappers.dfy` (Option/Result), `text.dfy` (str helpers), `json.dfy` (JSON values and
Python subscripting), `resize.dfy`, `request.dfy`, `pipeline.dfy`, `extract.dfy`, `cli.dfy`,
`web.dfy`.

## Model

| member | source | states |
|---|---|---|
| Text.AfterLast | app.py:60 | `rsplit(c, 1)[1]` holds no `c`, and `c` followed by it is a suffix of the input |
| Text.AfterLastLower | app.py:145 | lowering and then splitting at the last `.` gives the same extension as splitting and then lowering |
| Json.Contains | ocr_app.py:306 | `'error' in v` is key membership on a dict; it raises `TypeError` exactly on numbers, booleans and None |
| Resize.Ratio | ocr_app.py:106 | the chosen fraction respects both bounds and meets one of them exactly, i.e. it is `min(maxW/w, maxH/h)` |
| Resize.Scale | ocr_app.py:107-108 | `int(x * ratio)` is the floor of the exact product |
| Resize.NewSize | ocr_app.py:100-108 | a fitting size is returned unchanged; otherwise the result fits the box, is non-negative and never larger than the original |
| Resize.RatioBelowOne | ocr_app.py:102-106 | outside the box the ratio is strictly below 1 |
| Resize.NewSizeIsFloor | ocr_app.py:106-108 | each new side is the floor of old side times ratio |
| Resize.NewSizeMeetsABound | ocr_app.py:106-108 | the side that determined the ratio lands exactly on its bound |
| Resize.NewSizeKeepsAspect | ocr_app.py:105-108 | the aspect ratio is kept up to truncation: cross-products differ by less than one old side |
| Resize.ExtremeAspectTruncatesToZero | ocr_app.py:106-108 | a 1 x 3000 image is resized to 0 x 1024 |
| Resize.ScalePositive | ocr_app.py:107-108 | a truncated side is at least one pixel iff the exact product reaches one |
| Resize.NewSizePositiveInSquareBox | ocr_app.py:102-108 | in a square box of side m, an image outside the box keeps both sides positive iff neither side exceeds m times the other |
| Request.PayloadRoundTrip | ocr_app.py:202-213 | the request body carries exactly its model, text part and image URL where a reader of the API looks for them |
| Request.BuildPost | ocr_app.py:197-216 | the POST goes to the configured URL with `Bearer <key>`, JSON content type, a 300 s timeout and a body that parses back to the inputs |
| Request.PagePrompt | ocr_app.py:253 | the page prompt starts with the prompt and ends with `/N)` |
| Request.PagePromptInjective | ocr_app.py:253 | equal page prompts have equal page numbers and batch sizes |
| Pipeline.ErrorJson | ocr_app.py:219-220 | a failed request's record holds the exception text under `error` and the status code, or null, under `status_code` |
| Pipeline.ResizeImage | ocr_app.py:100-111 | images inside the box pass through; outside it, a zero side fails with "division by zero" and a target with a zero side with "height and width must be > 0"; otherwise the result has the size `Resize.NewSize` computes, which fits the box, only shrinks and keeps positive sides |
| Pipeline.ResizeFailsIffElongated | ocr_app.py:100-111 | an image with positive sides fails to resize iff one side is more than 1024 times the other |
| Pipeline.ImageToBase64 | ocr_app.py:124-137 | an in-memory image becomes a JPEG data URI; it fails exactly when resizing fails, with the resizer's message, or when the image has a zero side, in which case the JPEG writer refuses it with "cannot write empty image as JPEG" |
| Pipeline.EncodeImageBase64 | ocr_app.py:149-176 | a missing file gives "Image file not found"; an opening or encoding failure gives "Failed to process image <path>: " followed by that failure's own message; once the image opens, success iff the in-memory encoder succeeds, and success is a JPEG data URI |
| Pipeline.SourceDispatch | ocr_app.py:190-194 | an http(s) source is sent verbatim as `image_url.url`; any other source is sent as a JPEG data URI, or nothing is sent when encoding fails |
| Pipeline.OcrImage | ocr_app.py:189-220 | fails exactly when the image reference cannot be made, with that exception's message; otherwise it is the reply to the request carrying the plain prompt and that reference, or that request's error record |
| Pipeline.PageRequest | ocr_app.py:237-265 | the request for input k can be built exactly when its image reference can |
| Pipeline.PageRequestShape | ocr_app.py:242-265 | when input k encodes, request k can be built and carries `prompt (Page k+1/N)` and input k's image reference |
| Pipeline.PagesFrom | ocr_app.py:233-277 | the loop yields one record per request in order, numbered from 1, or the first failure to build a request |
| Pipeline.OcrMultipleImages | ocr_app.py:233-277 | a batch succeeds iff every input encodes; it then has one record per input, page k+1 holding the reply to request k; otherwise it fails with the first encoding error |
| Pipeline.BatchPages | ocr_app.py:237-275 | when every input encodes, the loop completes with one record per input, page k+1 holding the reply to request k |
| Pipeline.FailedPageIsRecorded | ocr_app.py:267-275 | a failed request for page k leaves that page's error record, while every other page keeps its number and the reply to its own request |
| Pipeline.UnreachableApiRecordsEveryPage | ocr_app.py:267-275 | when every call raises, a batch whose inputs encode still completes, each page holding its own error record in input order |
| Pipeline.PicturesAlwaysEncode | ocr_app.py:237-239 | a batch of page images with positive sides, neither more than 1024 times the other, completes with one record per page |
| Pipeline.ElongatedPageAbortsBatch | ocr_app.py:237-239 | a batch holding a 1 x 3000 page fails with Pillow's "height and width must be > 0" |
| Pipeline.ProcessPdf | ocr_app.py:291-294 | rasterising errors propagate; a rendered PDF succeeds iff every page image encodes, and then yields one record per page, numbered from 1, holding the reply to that page's request |
| Pipeline.BackendCheckedBeforeFile | ocr_app.py:62-73 | with no PDF library installed, a missing file reports the install hint and not "PDF file not found" |
| Extract.ExtractText | ocr_app.py:306-312 | an error key gives "Error: ..."; otherwise the content found at `choices[0].message.content`; `TypeError` escapes exactly for non-dicts and wrongly typed paths |
| Extract.LookupFailureCarriesRaw | ocr_app.py:311-312 | a missing key or index gives a string starting "Error parsing response" and ending with the raw JSON |
| Extract.CompletionText | ocr_app.py:309-310 | the content of a well-formed reply comes back unchanged |
| Extract.ErrorRecordText | ocr_app.py:306-307 | an error record from a failed request reads back as "Error: " + its message |
| Extract.MissingChoices | ocr_app.py:309-312 | a reply without `choices` gives the `KeyError` diagnostic `'choices'` with the raw reply |
| Extract.EmptyChoices | ocr_app.py:309-312 | an empty `choices` list gives the `IndexError` diagnostic with the raw reply |
| Cli.PdfRouteByExtension | ocr_app.py:389 | a local argument takes the PDF path iff its extension is "pdf" in any case; a name without a dot never does |
| Cli.UpperCaseSchemeIsLocal | ocr_app.py:389 | the URL test is case-sensitive, so `HTTP://...pdf` takes the local PDF path |
| Json.ErrorObject | ocr_app.py:397-399 | the record for a file whose processing raised has `error` as its only key, holding the exception text |
| Cli.ProcessFile | ocr_app.py:386-399 | a non-PDF argument yields exactly one file record; a PDF yields its pages numbered from 1, each with the response `process_pdf` gave it; an exception yields the single record `{"error": str(e)}` for the file, carrying the exception's own message |
| Cli.RunFiles | ocr_app.py:383-399 | every file record of a run names one of the arguments |
| Cli.RunFilesAppend | ocr_app.py:383-399 | the run over `a + b` is the run over `a` followed by the run over `b` |
| Cli.EveryFileProcessed | ocr_app.py:383-399 | the records of argument i stand unchanged between those of the arguments before and after it, whatever those produced |
| Cli.OneRecordPerImageFile | ocr_app.py:383-399 | with no PDF arguments, there is one record per argument, in argument order |
| Cli.AnyError | ocr_app.py:439 | the left-to-right `any(...)` is true iff some response holds `error` before any raises; false iff none does |
| Cli.ExitCode | ocr_app.py:439-440 | the status is 1 iff some response holds `error` before any membership test raises, 0 iff no response holds it, and never anything else |
| Cli.ExitCodeOfDictionaries | ocr_app.py:439-440 | with dict responses, the exit status is 1 iff some response has an `error` key, else 0 |
| Cli.FailedFileSetsExitCode | ocr_app.py:439-440 | a file whose processing raised makes the run exit with 1 |
| Web.ExtensionsAreLower | app.py:29 | the whitelist entries are lower case, non-empty and dot-free |
| Web.AllowedFileOfSplit | app.py:58-60 | `base.ext` with a dot-free `ext` is allowed iff the lowered `ext` is whitelisted |
| Web.AllowedFileIgnoresCase | app.py:60 | the check ignores case, and a name without a dot is rejected |
| Web.FindModel | app.py:97-104 | a model id is found iff some entry has it, and the entry found has that id |
| Web.Rejection | app.py:83-111 | the checks answer in order, each with its exact reply: 400 for no file, empty name, extension and unknown model, and 500 "Model <name> is not configured. Missing API key." for a selected model without a key; a request gets through iff all requirements hold |
| Web.DefaultModelNeedsApiKey | app.py:95-111 | without `model_id`, an acceptable upload proceeds iff `API_KEY` is non-empty, otherwise 500 "not configured" |
| Web.OriginalExt | app.py:121 | the restored extension never contains a dot |
| Web.RestoreExtension | app.py:118-123 | a dotted secured name is kept; otherwise, when the original has an extension, the name is `(secured or 'file')` + `.` + that lowered extension |
| Web.FileExt | app.py:145 | the processing type is the lowered text after the last dot of the saved name |
| Web.RestoredNameKeepsType | app.py:115-123 | when sanitising drops the dot, the saved name is still allowed and has the original's lowered extension |
| Web.ProcessUpload | app.py:147-162 | an extension "pdf" runs `process_pdf` and anything else `ocr_image` (without the DPI), carrying that call's pages, response or error through; PDF pages are numbered from 1 |
| Web.FormDpi | app.py:135 | an absent `dpi` field gives 200; an empty one raises; a parsed value ends in a digit |
| Web.WrittenDpiIsUsed | app.py:135 | a `dpi` field written as Python prints the integer n is read as n |
| Web.ExceptionBody | app.py:186-190 | the exception reply has `success` false and the exception text under `error` |
| Web.HandleOcr | app.py:83-190 | a rejected request is answered by the first failing check and saves nothing; an accepted one is saved under the restored name and answered with 500 and the `int()` error when the DPI does not parse; otherwise with 200 and the response data iff processing the saved file with the selected model's URL, key and model, the prompt (or its default) and the DPI succeeds, and with 500 and the exception body when it fails |
| Web.SuccessfulReplyShape | app.py:145-168 | a 200 reply has type "pdf" iff the saved name ends in .pdf; then `pages` counts `results`, numbered from 1; an image reply has one result for page 1 |
| Web.ResponseFields | app.py:152-168 | the success body has the fields `success`, `filename`, `type`, and `pages` for a PDF, plus `results` |
| Web.AnyConfigured | app.py:209 | `any(m['configured'])` holds iff some entry's `configured` is true |
| Web.EntryFields | app.py:198-203 | an entry reports `configured` from the key, and shows `api_url` only when configured |
| Web.StatusReadyIffConfigured | app.py:196-209 | the status is "ready" iff some model has a non-empty API key, else "missing_config" |
| Web.ApiUrlShownOnlyWhenConfigured | app.py:202 | `models[i].api_url` is "NOT_CONFIGURED" unless model i has a key, and is its URL when it has one |
| Web.EmptyEnvironmentIsMissingConfig | app.py:32-45 | with no environment variables set, the service reports "missing_config" |

## Left out

- Pillow work is reached only through `Io`: decoding, RGBA flattening, RGB conversion, Lanczos resampling, JPEG encoding and base64. These are foreign library calls.
- Pipeline.ImageToBase64: `Io.jpegBase64` is assumed to succeed on every image with positive sides; the only JPEG writer failure modelled is Pillow's refusal of an empty image. Other encoder errors, such as an out-of-memory failure, are not modelled.
- `image_to_base64` is modelled for its default PNG format only, the only one the program uses. It always writes JPEG.
- PDF rasterisation (pypdfium2 at `dpi/72`, or pdf2image) is `Io.renderPdf`. The import-time backend choice is `Io.pdfBackend`.
- The HTTP call, `raise_for_status` and JSON decoding are the `Io.post` oracle, because they are network I/O. The order of the header dict is not modelled.
- `Io.post` is a function of the request alone, so the oracle is deterministic: the same request always gets the same reply, and the same image named twice gets the same answer twice. A real server need not behave so.
- Resize.NewSize: it computes the ratio exactly. Python's float division may land one pixel lower. It requires positive sides; `Pipeline.ResizeImage` handles zero sides and zero targets.
- Pipeline.ResizeImage: its success/failure split uses the exact ratio. Python's float ratio can lose the last pixel at the boundary: a 49 x 50176 page gives `int(49 * (1024 / 50176)) == 0` in IEEE doubles, so Pillow refuses it, while the model resizes it to 1 x 1024. Floating point is not modelled.
- Pipeline.ResizeFailsIffElongated: its 1024:1 threshold is exact. In the program, boundary shapes with one side exactly 1024 times the other (49 x 50176, and widths 98, 103, 107, 161, 187, 196 and 197 alike) can also fail through float rounding.
- Pipeline.PicturesAlwaysEncode: its requires admits one side exactly 1024 times the other. For such pages (49 x 50176, say), Python's float ratio can truncate a side to 0 and abort the batch, which the exact model does not show.
- Printing, argparse, `.env` loading and the environment defaults of the command line are left out as I/O. So are the `--json` and `--separate-pages` output and the `--output` file.
- The text-mode output loop of `main` calls `extract_text`, which can raise `TypeError` before the exit status is computed. That loop is not modelled, for the same reason.
- Flask plumbing is left out as framework I/O: writing and deleting the upload, the 16 MB limit and its 413 handler, `jsonify`, the startup banner, and the `/` and `/health` routes.
- `os.path.join(UPLOAD_FOLDER, filename)` is modelled as `folder + "/" + filename`. This is the join for a folder without a trailing separator.
- The exception reply's `traceback` field is `null`, i.e. with debug mode off. A traceback's text is not modelled.
- `secure_filename` is an arbitrary function parameter, because its sanitising rules belong to werkzeug.
- `str.lower` is modelled for ASCII letters only.
- `json.dumps` and `repr` do not escape characters in the model. `repr` always uses single quotes.
- JSON numbers are integers only. `int()` accepts only an optional sign and ASCII digits; Python also accepts surrounding whitespace and underscores.
- `ALLOWED_EXTENSIONS` is a Python set, whose iteration order in the "Allowed types" message is unspecified. The model uses declaration order.
- JSON objects are member sequences, which may repeat a key; a dict from `response.json()` cannot. Replies of the `Io.post` oracle are assumed to have distinct keys, since `Dump` would print a repeated key twice where `json.dumps` prints it once.
- Json.Get: its contract states that the value found belongs to a member with that key. It does not state that the last such member wins, though the definition does.
- Cli.AnyError: when a response is not a dict, list or string, `'error' in ...` raises. The model then returns `None` rather than an exit status.


=== FILE: cli.dfy ===
/** The decisions `main` in ocr_app.py takes around the OCR calls: which files go through the
    PDF path, how each file's outcome becomes result records (an exception becomes an error
    record and the next file is still processed), and the process exit status. */
module Cli {
  import opened Wrappers
  import opened Text
  import opened Json
  import opened Request
  import opened Pipeline

  /** One element of `all_results`: a page of a PDF, or the outcome for a whole file. */
  datatype Record = PageRecord(page: nat, response: Value) | FileRecord(file: string, response: Value)

  /** `file_path.lower().endswith('.pdf') and not file_path.startswith(('http://', 'https://'))`:
      the extension test ignores case, the URL test does not. */
  predicate IsPdfRoute(path: string) {
    EndsWith(Lower(path), ".pdf") && !IsRemote(path)
  }

  /** A text whose last dot is followed by `ext` ends in ".pdf" exactly when `ext` is "pdf". */
  lemma EndsWithPdf(pre: string, ext: string)
    requires '.' !in ext
    ensures EndsWith(pre + "." + ext, ".pdf") <==> ext == "pdf"
  {
    var s := pre + "." + ext;
    assert s[|pre|] == '.';
    assert forall i :: 0 <= i < |ext| ==> s[|pre| + 1 + i] == ext[i];
    if EndsWith(s, ".pdf") {
      assert s[|s| - 4..][0] == '.';
      assert ext == s[|s| - 3..];
    }
    if ext == "pdf" {
      assert s[|s| - 4..] == "." + ext;
    }
  }

  /** The routing rule, stated through the last dot: a local name whose extension is "pdf" in
      any case goes through the PDF path; a name without a dot never does. */
  lemma PdfRouteByExtension(path: string)
    ensures '.' !in path ==> !IsPdfRoute(path)
    ensures '.' in path && !IsRemote(path) ==> (IsPdfRoute(path) <==> Lower(AfterLast(path, '.')) == "pdf")
  {
    if '.' in path {
      var lp := Lower(path);
      AfterLastLower(path, '.');
      SplitAtLast(lp, '.');
      EndsWithPdf(BeforeLast(lp, '.'), AfterLast(lp, '.'));
    } else {
      LowerKeepsChar(path, '.');
      NoDotNoPdf(Lower(path));
    }
  }

  lemma NoDotNoPdf(s: string)
    requires '.' !in s
    ensures !EndsWith(s, ".pdf")
  {
    if |s| >= 4 {
      assert s[|s| - 4] in s;
      assert s[|s| - 4..][0] == s[|s| - 4];
    }
  }

  /** An upper-case scheme is not a URL to this test: "HTTP://host/doc.pdf" is treated as a
      local PDF path, and reaches the file-existence check rather than the network. */
  lemma UpperCaseSchemeIsLocal(rest: string)
    ensures IsPdfRoute("HTTP://" + rest + ".pdf")
  {
    var path := "HTTP://" + rest + ".pdf";
    assert path[0] == 'H';
    LowerAppend("HTTP://" + rest, ".pdf");
    assert Lower(".pdf") == ".pdf";
    assert Lower(path)[|path| - 4..] == ".pdf";
  }

  function PageRecords(pages: seq<PageResult>): (rs: seq<Record>)
    ensures |rs| == |pages|
    ensures forall i :: 0 <= i < |pages| ==> rs[i] == PageRecord(pages[i].page, pages[i].response)
  {
    seq(|pages|, i requires 0 <= i < |pages| => PageRecord(pages[i].page, pages[i].response))
  }

  /** The records one file contributes to `all_results`. */
  function ProcessFile(path: string, prompt: string, dpi: int, cfg: ApiConfig, io: Io): (rs: seq<Record>)
    ensures !IsPdfRoute(path) ==> |rs| == 1 && rs[0].FileRecord? && rs[0].file == path
    ensures !IsPdfRoute(path) && OcrImage(path, prompt, cfg, io).Success? ==>
      rs == [FileRecord(path, OcrImage(path, prompt, cfg, io).value)]
    ensures IsPdfRoute(path) && ProcessPdf(path, prompt, dpi, cfg, io).Success? ==>
      |rs| == |ProcessPdf(path, prompt, dpi, cfg, io).value| &&
      forall i :: 0 <= i < |rs| ==>
        (rs[i].PageRecord? && rs[i].page == i + 1 && rs[i].response == ProcessPdf(path, prompt, dpi, cfg, io).value[i].response)
    ensures (if IsPdfRoute(path) then ProcessPdf(path, prompt, dpi, cfg, io).Failure?
             else OcrImage(path, prompt, cfg, io).Failure?) ==>
      |rs| == 1 && rs[0].FileRecord? && rs[0].file == path && HasKey(rs[0].response, "error")
    ensures IsPdfRoute(path) && ProcessPdf(path, prompt, dpi, cfg, io).Failure? ==>
      rs == [FileRecord(path, ErrorObject(ProcessPdf(path, prompt, dpi, cfg, io).error))]
    ensures !IsPdfRoute(path) && OcrImage(path, prompt, cfg, io).Failure? ==>
      rs == [FileRecord(path, ErrorObject(OcrImage(path, prompt, cfg, io).error))]
  {
    if IsPdfRoute(path) then
      match ProcessPdf(path, prompt, dpi, cfg, io)
      case Failure(e) => [FileRecord(path, ErrorObject(e))]
      case Success(pages) => PageRecords(pages)
    else
      match OcrImage(path, prompt, cfg, io)
      case Failure(e) => [FileRecord(path, ErrorObject(e))]
      case Success(v) => [FileRecord(path, v)]
  }

  /** The file loop of `main`: every file is processed, in order, whatever happened to the
      ones before it. */
  function RunFiles(files: seq<string>, prompt: string, dpi: int, cfg: ApiConfig, io: Io): (rs: seq<Record>)
    ensures forall i :: 0 <= i < |rs| && rs[i].FileRecord? ==> rs[i].file in files
  {
    if files == [] then []
    else
      var first := ProcessFile(files[0], prompt, dpi, cfg, io);
      var rest := RunFiles(files[1..], prompt, dpi, cfg, io);
      assert forall i :: 0 <= i < |rest| ==> (first + rest)[|first| + i] == rest[i];
      assert forall f :: f in files[1..] ==> f in files;
      first + rest
  }

  /** The run over `a + b` is the run over `a` followed by the run over `b`: what a file
      contributes does not depend on the files before or after it. */
  lemma {:induction false} RunFilesAppend(a: seq<string>, b: seq<string>, prompt: string, dpi: int, cfg: ApiConfig, io: Io)
    ensures RunFiles(a + b, prompt, dpi, cfg, io) == RunFiles(a, prompt, dpi, cfg, io) + RunFiles(b, prompt, dpi, cfg, io)
  {
    if a == [] {
      assert a + b == b;
    } else {
      assert (a + b)[0] == a[0] && (a + b)[1..] == a[1..] + b;
      RunFilesAppend(a[1..], b, prompt, dpi, cfg, io);
    }
  }

  /** Every argument is processed: the records of file `i` stand, unchanged, between those of
      the files before it and those of the files after it. */
  lemma EveryFileProcessed(files: seq<string>, i: nat, prompt: string, dpi: int, cfg: ApiConfig, io: Io)
    requires i < |files|
    ensures RunFiles(files, prompt, dpi, cfg, io) ==
      RunFiles(files[..i], prompt, dpi, cfg, io) + ProcessFile(files[i], prompt, dpi, cfg, io) + RunFiles(files[i + 1..], prompt, dpi, cfg, io)
  {
    assert files == files[..i] + ([files[i]] + files[i + 1..]);
    RunFilesAppend(files[..i], [files[i]] + files[i + 1..], prompt, dpi, cfg, io);
    RunFilesAppend([files[i]], files[i + 1..], prompt, dpi, cfg, io);
    assert [files[i]][1..] == [];
  }

  /** Every non-PDF file contributes exactly one record, so a run over image files and URLs
      has one record per argument, in argument order. */
  lemma {:induction false} OneRecordPerImageFile(files: seq<string>, prompt: string, dpi: int, cfg: ApiConfig, io: Io)
    requires forall i :: 0 <= i < |files| ==> !IsPdfRoute(files[i])
    ensures |RunFiles(files, prompt, dpi, cfg, io)| == |files|
    ensures forall i :: 0 <= i < |files| ==>
      RunFiles(files, prompt, dpi, cfg, io)[i].FileRecord? && RunFiles(files, prompt, dpi, cfg, io)[i].file == files[i]
  {
    if files != [] {
      OneRecordPerImageFile(files[1..], prompt, dpi, cfg, io);
      var first := ProcessFile(files[0], prompt, dpi, cfg, io);
      var rest := RunFiles(files[1..], prompt, dpi, cfg, io);
      assert |first| == 1 && first[0].FileRecord? && first[0].file == files[0];
      assert RunFiles(files, prompt, dpi, cfg, io) == first + rest;
      forall i | 1 <= i < |files|
        ensures (first + rest)[i].FileRecord? && (first + rest)[i].file == files[i]
      {
        assert (first + rest)[i] == rest[i - 1];
        assert files[1..][i - 1] == files[i];
      }
    }
  }

  /** `any('error' in r.get('response', {}) for r in all_results)`, evaluated left to right:
      `None` when a membership test raises `TypeError` before any record with an error is met. */
  function AnyError(rs: seq<Record>): (r: Option<bool>)
    ensures r == Some(true) <==> exists k :: (0 <= k < |rs| && Contains(rs[k].response, "error") == Some(true)
      && (forall j :: 0 <= j < k ==> Contains(rs[j].response, "error") == Some(false)))
    ensures r == Some(false) <==> forall k :: 0 <= k < |rs| ==> Contains(rs[k].response, "error") == Some(false)
  {
    if rs == [] then Some(false)
    else
      match Contains(rs[0].response, "error")
      case None => None
      case Some(true) => Some(true)
      case Some(false) =>
        var rest := AnyError(rs[1..]);
        assert forall k :: 1 <= k < |rs| ==> rs[1..][k - 1] == rs[k];
        rest
  }

  /** The value `main` returns: 1 if some record's response has an `error` key, else 0. */
  function ExitCode(rs: seq<Record>): (r: Option<int>)
    ensures r == Some(1) <==> exists k :: (0 <= k < |rs| && Contains(rs[k].response, "error") == Some(true)
      && (forall j :: 0 <= j < k ==> Contains(rs[j].response, "error") == Some(false)))
    ensures r == Some(0) <==> forall k :: 0 <= k < |rs| ==> Contains(rs[k].response, "error") == Some(false)
    ensures r.Some? ==> r.value == 0 || r.value == 1
  {
    match AnyError(rs)
    case None => None
    case Some(b) => Some(if b then 1 else 0)
  }

  /** When every response is a dictionary, the exit status is 1 exactly when some response
      holds an `error` key, and 0 otherwise. */
  lemma ExitCodeOfDictionaries(rs: seq<Record>)
    requires forall k :: 0 <= k < |rs| ==> rs[k].response.Object?
    ensures ExitCode(rs) == Some(1) <==> exists k :: 0 <= k < |rs| && HasKey(rs[k].response, "error")
    ensures ExitCode(rs) == Some(0) <==> forall k :: 0 <= k < |rs| ==> !HasKey(rs[k].response, "error")
  {
    if exists k :: 0 <= k < |rs| && HasKey(rs[k].response, "error") {
      var k :| 0 <= k < |rs| && HasKey(rs[k].response, "error");
      var first := FirstError(rs, k);
    }
  }

  /** The first record whose response holds an `error` key, at or before `k`. */
  lemma {:induction false} FirstError(rs: seq<Record>, k: nat) returns (first: nat)
    requires forall i :: 0 <= i < |rs| ==> rs[i].response.Object?
    requires k < |rs| && HasKey(rs[k].response, "error")
    ensures first <= k && HasKey(rs[first].response, "error")
    ensures forall j :: 0 <= j < first ==> !HasKey(rs[j].response, "error")
    decreases k
  {
    if exists j :: 0 <= j < k && HasKey(rs[j].response, "error") {
      var j :| 0 <= j < k && HasKey(rs[j].response, "error");
      first := FirstError(rs, j);
    } else {
      first := k;
    }
  }

  /** A file that could not be processed makes the run end with status 1, as long as every
      response met before it is a dictionary. */
  lemma FailedFileSetsExitCode(before: seq<Record>, path: string, message: string, after: seq<Record>)
    requires forall k :: 0 <= k < |before| ==> before[k].response.Object?
    ensures ExitCode(before + [FileRecord(path, ErrorObject(message))] + after) == Some(1)
  {
    var rs := before + [FileRecord(path, ErrorObject(message))] + after;
    assert rs[|before|] == FileRecord(path, ErrorObject(message));
    assert forall k :: 0 <= k < |before| ==> rs[k] == before[k];
    if forall k :: 0 <= k < |before| ==> !HasKey(before[k].response, "error") {
      assert Contains(rs[|before|].response, "error") == Some(true);
    } else {
      var k :| 0 <= k < |before| && HasKey(before[k].response, "error");
      var first := FirstError(before, k);
      assert Contains(rs[first].response, "error") == Some(true);
    }
  }
}

=== FILE: extract.dfy ===
/** `OCRApp.extract_text`: the text of a chat-completion reply, an error record turned into
    "Error: ...", or a diagnostic carrying the raw reply when the expected shape is absent. */
module Extract {
  import opened Wrappers
  import opened Text
  import opened Json
  import Pipeline

  /** What `extract_text` does with a response: return a value, or let a `TypeError` escape
      (only `KeyError` and `IndexError` are caught). */
  datatype Extracted = Returned(value: Value) | Raised

  /** `['choices'][0]['message']['content']` */
  const ContentPath: seq<Step> := [Key("choices"), Index(0), Key("message"), Key("content")]

  const ParseErrorPrefix := "Error parsing response"

  function ExtractText(resp: Value): (r: Extracted)
    ensures HasKey(resp, "error") ==> r == Returned(Str("Error: " + PyStr(Get(resp.members, "error").value)))
    ensures resp.Object? && !HasKey(resp, "error") && Walk(resp, ContentPath).Found? ==>
      r == Returned(Walk(resp, ContentPath).value)
    ensures r.Raised? <==> !resp.Object? || (!HasKey(resp, "error") && Walk(resp, ContentPath).TypeError?)
  {
    match Contains(resp, "error")
    case None => Raised
    case Some(true) =>
      (match Subscript(resp, Key("error"))
       case Found(e) => Returned(Str("Error: " + PyStr(e)))
       case _ => Raised)
    case Some(false) =>
      match Walk(resp, ContentPath)
      case Found(content) => Returned(content)
      case LookupError(m) =>
        Returned(Str(ParseErrorPrefix + ": " + m + "\nRaw response: " + Dump(resp, 0)))
      case TypeError => Raised
  }

  /** When the content path is missing from a dictionary reply, the caller still gets a string:
      the parse-error diagnostic, ending with the whole reply serialised. */
  lemma LookupFailureCarriesRaw(resp: Value)
    requires resp.Object? && !HasKey(resp, "error") && Walk(resp, ContentPath).LookupError?
    ensures ExtractText(resp).Returned? && ExtractText(resp).value.Str?
    ensures StartsWith(ExtractText(resp).value.s, ParseErrorPrefix)
    ensures EndsWith(ExtractText(resp).value.s, Dump(resp, 0))
  {
    var text := ParseErrorPrefix + ": " + Walk(resp, ContentPath).message + "\nRaw response: " + Dump(resp, 0);
    assert ExtractText(resp) == Returned(Str(text));
    assert text[..|ParseErrorPrefix|] == ParseErrorPrefix;
    assert text[|text| - |Dump(resp, 0)|..] == Dump(resp, 0);
  }

  /** A reply of the usual chat-completion shape, `{"choices": [{"message": {"role": "assistant",
      "content": text}}]}`. */
  function Completion(text: string): Value {
    Object([Member("choices", Array([Object([Member("message", Object([
      Member("role", Str("assistant")),
      Member("content", Str(text))
    ]))])]))])
  }

  /** The content of a well-formed reply comes back unchanged. */
  lemma CompletionText(text: string)
    ensures ExtractText(Completion(text)) == Returned(Str(text))
  {
    var resp := Completion(text);
    var message := Object([Member("role", Str("assistant")), Member("content", Str(text))]);
    assert Get(message.members, "content") == Some(Str(text));
    assert Walk(message, [Key("content")]) == Found(Str(text));
    assert Walk(resp, ContentPath) == Found(Str(text));
  }

  /** The error record a failed request leaves behind reads back as "Error: " + the exception text. */
  lemma ErrorRecordText(message: string, code: Option<int>)
    ensures ExtractText(Pipeline.ErrorJson(message, code)) == Returned(Str("Error: " + message))
  {
  }

  /** A dictionary reply without `error` and without `choices` yields the diagnostic naming the
      missing key, followed by the raw reply. */
  lemma MissingChoices(members: seq<Member>)
    requires forall i :: 0 <= i < |members| ==> members[i].key != "error" && members[i].key != "choices"
    ensures ExtractText(Object(members)) ==
      Returned(Str(ParseErrorPrefix + ": " + "'choices'" + "\nRaw response: " + Dump(Object(members), 0)))
  {
    var resp := Object(members);
    assert Get(members, "error").None? && Get(members, "choices").None?;
    assert Contains(resp, "error") == Some(false);
    assert Walk(resp, ContentPath) == LookupError("'choices'") by {
      assert Subscript(resp, Key("choices")) == LookupError("'choices'");
    }
  }

  /** An empty `choices` list yields the `IndexError` diagnostic rather than an exception. */
  lemma EmptyChoices(resp: Value)
    requires resp == Object([Member("choices", Array([]))])
    ensures ExtractText(resp) ==
      Returned(Str(ParseErrorPrefix + ": " + "list index out of range" + "\nRaw response: " + Dump(resp, 0)))
  {
    assert Get(resp.members, "error").None?;
    assert Contains(resp, "error") == Some(false);
    assert Subscript(resp, Key("choices")) == Found(Array([]));
    assert Walk(Array([]), ContentPath[1..]) == LookupError("list index out of range");
    assert Walk(resp, ContentPath) == LookupError("list index out of range");
  }
}

=== FILE: json.dfy ===
/** The JSON values that flow through the OCR application (request payloads, remote
    responses, result records) together with the Python operations applied to them:
    subscripting (`v['k']`, `v[0]`), membership (`'error' in v`), `json.dumps(v, indent=2)`
    and `str(v)`. Numbers are integers; objects keep their keys in insertion order. */
module Json {
  import opened Wrappers
  import opened Text

  datatype Value =
    | Null
    | Bool(b: bool)
    | Int(i: int)
    | Str(s: string)
    | Array(items: seq<Value>)
    | Object(members: seq<Member>)

  datatype Member = Member(key: string, value: Value)

  /** The value stored under `key`; as in a dictionary decoded by `json.loads`, a later
      duplicate key wins over an earlier one. */
  function Get(members: seq<Member>, key: string): (r: Option<Value>)
    ensures r.None? <==> forall i :: 0 <= i < |members| ==> members[i].key != key
    ensures r.Some? ==> Member(key, r.value) in members
  {
    if members == [] then None
    else if members[|members| - 1].key == key then Some(members[|members| - 1].value)
    else
      var init := members[..|members| - 1];
      assert members == init + [members[|members| - 1]];
      Get(init, key)
  }

  /** A key that no later member repeats maps to its own member's value. */
  lemma {:induction false} GetUnrepeated(members: seq<Member>, i: nat)
    requires i < |members| && forall j :: i < j < |members| ==> members[j].key != members[i].key
    ensures Get(members, members[i].key) == Some(members[i].value)
    decreases |members|
  {
    if i < |members| - 1 {
      GetUnrepeated(members[..|members| - 1], i);
    }
  }

  /** `{'error': message}`: the one-key record both front ends answer an error with. */
  function ErrorObject(message: string): (r: Value)
    ensures r.Object? && Get(r.members, "error") == Some(Str(message))
    ensures forall i :: 0 <= i < |r.members| ==> r.members[i].key == "error"
  {
    Object([Member("error", Str(message))])
  }

  /** `key in v` for a dictionary `v`. */
  predicate HasKey(v: Value, key: string) {
    v.Object? && Get(v.members, key).Some?
  }

  // Subscripting

  /** One subscript: a dictionary key or a list position. */
  datatype Step = Key(name: string) | Index(pos: nat)

  /** The outcome of a Python subscript: the value found; a `KeyError` or `IndexError`
      (both caught by the text extractor) with its `str(e)`; or a `TypeError`, which is not. */
  datatype Lookup = Found(value: Value) | LookupError(message: string) | TypeError

  /** `v[step]` with Python's behaviour on dictionaries, lists and strings. */
  function Subscript(v: Value, step: Step): Lookup {
    match v
    case Object(ms) =>
      (match step
       case Key(k) => if Get(ms, k).Some? then Found(Get(ms, k).value) else LookupError("'" + k + "'")
       case Index(n) => LookupError(NatToString(n)))
    case Array(xs) =>
      (match step
       case Index(n) => if n < |xs| then Found(xs[n]) else LookupError("list index out of range")
       case Key(_) => TypeError)
    case Str(s) =>
      (match step
       case Index(n) => if n < |s| then Found(Str([s[n]])) else LookupError("string index out of range")
       case Key(_) => TypeError)
    case _ => TypeError
  }

  /** `v[p0][p1]...`, stopping at the first subscript that raises. */
  function Walk(v: Value, path: seq<Step>): Lookup
    decreases |path|
  {
    if path == [] then Found(v)
    else
      match Subscript(v, path[0])
      case Found(x) => Walk(x, path[1..])
      case other => other
  }

  /** `item in v` for a string `item`: key membership on a dictionary, element equality on a
      list, substring on a string; `None` where Python raises `TypeError` (numbers, booleans, None). */
  function Contains(v: Value, item: string): (r: Option<bool>)
    ensures v.Object? ==> r == Some(HasKey(v, item))
    ensures r.None? <==> !(v.Object? || v.Array? || v.Str?)
  {
    match v
    case Object(ms) => Some(Get(ms, item).Some?)
    case Array(xs) => Some(Str(item) in xs)
    case Str(s) => Some(IsInfix(item, s))
    case _ => None
  }

  // json.dumps(v, indent=2); character escaping is not modelled

  function Indent(level: nat): string {
    if level == 0 then "" else "  " + Indent(level - 1)
  }

  function Dump(v: Value, level: nat): string
    decreases v, 1
  {
    match v
    case Null => "null"
    case Bool(b) => if b then "true" else "false"
    case Int(i) => IntToString(i)
    case Str(s) => "\"" + s + "\""
    case Array(xs) =>
      if xs == [] then "[]" else "[\n" + DumpItems(v, xs, level + 1) + "\n" + Indent(level) + "]"
    case Object(ms) =>
      if ms == [] then "{}" else "{\n" + DumpMembers(v, ms, level + 1) + "\n" + Indent(level) + "}"
  }

  function DumpItems(parent: Value, xs: seq<Value>, level: nat): string
    requires forall x :: x in xs ==> x < parent
    decreases parent, 0, |xs|
  {
    if xs == [] then ""
    else
      assert xs[0] in xs && forall x :: x in xs[1..] ==> x in xs;
      Indent(level) + Dump(xs[0], level)
      + (if |xs| == 1 then "" else ",\n" + DumpItems(parent, xs[1..], level))
  }

  function DumpMembers(parent: Value, ms: seq<Member>, level: nat): string
    requires forall m :: m in ms ==> m.value < parent
    decreases parent, 0, |ms|
  {
    if ms == [] then ""
    else
      assert ms[0] in ms && forall m :: m in ms[1..] ==> m in ms;
      Indent(level) + "\"" + ms[0].key + "\": " + Dump(ms[0].value, level)
      + (if |ms| == 1 then "" else ",\n" + DumpMembers(parent, ms[1..], level))
  }

  // str(v): strings print bare, everything else as Python's repr; quote escaping is not modelled

  function Repr(v: Value): string
    decreases v, 1
  {
    match v
    case Null => "None"
    case Bool(b) => if b then "True" else "False"
    case Int(i) => IntToString(i)
    case Str(s) => "'" + s + "'"
    case Array(xs) => "[" + ReprItems(v, xs) + "]"
    case Object(ms) => "{" + ReprMembers(v, ms) + "}"
  }

  function ReprItems(parent: Value, xs: seq<Value>): string
    requires forall x :: x in xs ==> x < parent
    decreases parent, 0, |xs|
  {
    if xs == [] then ""
    else
      assert xs[0] in xs && forall x :: x in xs[1..] ==> x in xs;
      Repr(xs[0]) + (if |xs| == 1 then "" else ", " + ReprItems(parent, xs[1..]))
  }

  function ReprMembers(parent: Value, ms: seq<Member>): string
    requires forall m :: m in ms ==> m.value < parent
    decreases parent, 0, |ms|
  {
    if ms == [] then ""
    else
      assert ms[0] in ms && forall m :: m in ms[1..] ==> m in ms;
      "'" + ms[0].key + "': " + Repr(ms[0].value)
      + (if |ms| == 1 then "" else ", " + ReprMembers(parent, ms[1..]))
  }

  function PyStr(v: Value): string {
    if v.Str? then v.s else Repr(v)
  }
}

=== FILE: pipeline.dfy ===
/** The `OCRApp` class: turning an image source into an `image_url` (a remote URL verbatim,
    or a base64 JPEG data URI of the possibly shrunk image), sending one request per image,
    and the page loop of `ocr_multiple_images` / `process_pdf`. Everything outside the
    process (file system, Pillow, the PDF libraries, the HTTP client) is reached through `Io`. */
module Pipeline {
  import opened Wrappers
  import opened Text
  import opened Json
  import opened Request
  import Resize

  /** A decoded image; the pixel data is opaque to the model. */
  datatype Bitmap = Bitmap(width: nat, height: nat, pixels: seq<int>)

  /** What one POST produced: the decoded JSON body of a 2xx reply, or a `requests` exception
      with its message and the status code of the reply it carried, if it carried one. */
  datatype CallOutcome = Answer(body: Value) | RequestFailed(message: string, statusCode: Option<int>)

  /** The world outside the process. */
  datatype Io = Io(
    fileExists: string -> bool,
    // Image.open followed by the RGBA flattening / RGB conversion; Failure carries str(e)
    openImage: string -> Result<Bitmap, string>,
    // Lanczos resampling of a bitmap to the given size
    resample: (Bitmap, Resize.Size) -> seq<int>,
    // JPEG encoding at quality 85 followed by base64
    jpegBase64: Bitmap -> string,
    // whether pypdfium2 or pdf2image could be imported
    pdfBackend: bool,
    // one bitmap per page at the given DPI, in page order
    renderPdf: (string, int) -> Result<seq<Bitmap>, string>,
    // requests.post + raise_for_status + response.json()
    post: HttpPost -> CallOutcome)

  const MaxWidth: nat := 1024
  const MaxHeight: nat := 1024
  const JpegDataUriPrefix := "data:image/jpeg;base64,"
  const NoPdfBackendMessage :=
    "No PDF library available. " +
    "Install either:\n  pip install pypdfium2\nor:\n  pip install pdf2image\n  (pdf2image also requires poppler-utils)"

  /** The record a failed request is replaced by: `{"error": str(e), "status_code": code or None}`. */
  function ErrorJson(message: string, statusCode: Option<int>): (r: Value)
    ensures HasKey(r, "error") && Get(r.members, "error") == Some(Str(message))
    ensures Get(r.members, "status_code") == Some(if statusCode.Some? then Int(statusCode.value) else Null)
  {
    var members := [
      Member("error", Str(message)),
      Member("status_code", if statusCode.Some? then Int(statusCode.value) else Null)
    ];
    assert members[..1] == [Member("error", Str(message))];
    assert Get(members[..1], "error") == Some(Str(message));
    GetUnrepeated(members, 1);
    Object(members)
  }

  /** The response recorded for one call: the reply body, or the error record. */
  function ResponseOf(o: CallOutcome): Value {
    match o
    case Answer(body) => body
    case RequestFailed(message, code) => ErrorJson(message, code)
  }

  /** The `ValueError` Pillow's `resize` raises for a target with a side below one pixel. */
  const EmptyTargetMessage := "height and width must be > 0"

  /** `resize_image_if_needed` with the default 1024 x 1024 box. An image with a zero side
      outside the box makes Python divide by zero; a target truncated to zero pixels on a side
      is refused by Pillow. */
  function ResizeImage(img: Bitmap, io: Io): (r: Result<Bitmap, string>)
    ensures Resize.Fits(img.width, img.height, MaxWidth, MaxHeight) ==> r == Success(img)
    ensures r.Failure? <==>
      !Resize.Fits(img.width, img.height, MaxWidth, MaxHeight) &&
      (img.width == 0 || img.height == 0 ||
       Resize.NewSize(img.width, img.height, MaxWidth, MaxHeight).width == 0 ||
       Resize.NewSize(img.width, img.height, MaxWidth, MaxHeight).height == 0)
    ensures r.Success? ==> r.value.width <= MaxWidth && r.value.height <= MaxHeight
    ensures r.Success? ==> r.value.width <= img.width && r.value.height <= img.height
    ensures r.Success? && img.width > 0 && img.height > 0 ==> r.value.width > 0 && r.value.height > 0
    ensures r.Success? && !Resize.Fits(img.width, img.height, MaxWidth, MaxHeight) && img.width > 0 && img.height > 0 ==>
      r.value.width == Resize.NewSize(img.width, img.height, MaxWidth, MaxHeight).width &&
      r.value.height == Resize.NewSize(img.width, img.height, MaxWidth, MaxHeight).height
    ensures !Resize.Fits(img.width, img.height, MaxWidth, MaxHeight) && (img.width == 0 || img.height == 0) ==>
      r == Failure("division by zero")
    ensures r.Failure? && img.width > 0 && img.height > 0 ==> r.error == EmptyTargetMessage
  {
    if Resize.Fits(img.width, img.height, MaxWidth, MaxHeight) then Success(img)
    else if img.width == 0 || img.height == 0 then Failure("division by zero")
    else
      var size := Resize.NewSize(img.width, img.height, MaxWidth, MaxHeight);
      if size.width == 0 || size.height == 0 then Failure(EmptyTargetMessage)
      else Success(Bitmap(size.width, size.height, io.resample(img, size)))
  }

  /** An image with positive sides can be prepared for sending exactly when neither side is
      more than 1024 times the other; a longer strip is shrunk to nothing on its short side. */
  lemma ResizeFailsIffElongated(img: Bitmap, io: Io)
    requires img.width > 0 && img.height > 0
    ensures ResizeImage(img, io).Failure? <==>
      img.height > MaxHeight * img.width || img.width > MaxWidth * img.height
  {
    if Resize.Fits(img.width, img.height, MaxWidth, MaxHeight) {
      Resize.MulMonotone(MaxHeight, 1, img.width);
      Resize.MulMonotone(MaxWidth, 1, img.height);
    } else {
      Resize.NewSizePositiveInSquareBox(img.width, img.height, MaxWidth);
    }
  }

  /** The `ValueError` Pillow's JPEG writer raises for an image with a zero side. */
  const EmptyJpegMessage := "cannot write empty image as JPEG"

  /** `image_to_base64` with its default PNG format, which is always written as JPEG. An image
      with a zero side that already fits the box is passed on unresized and refused by the
      JPEG writer. */
  function ImageToBase64(img: Bitmap, io: Io): (r: Result<string, string>)
    ensures r.Success? ==> StartsWith(r.value, JpegDataUriPrefix)
    ensures r.Failure? <==> ResizeImage(img, io).Failure? || img.width == 0 || img.height == 0
    ensures ResizeImage(img, io).Failure? ==> r == Failure(ResizeImage(img, io).error)
    ensures ResizeImage(img, io).Success? && r.Failure? ==> r == Failure(EmptyJpegMessage)
  {
    match ResizeImage(img, io)
    case Failure(e) => Failure(e)
    case Success(small) =>
      if small.width == 0 || small.height == 0 then Failure(EmptyJpegMessage)
      else Success(JpegDataUriPrefix + io.jpegBase64(small))
  }

  /** `encode_image_base64`: a missing file is reported as such; any failure while opening,
      converting or resizing is wrapped into "Failed to process image <path>: <reason>". */
  function EncodeImageBase64(path: string, io: Io): (r: Result<string, string>)
    ensures !io.fileExists(path) ==> r == Failure("Image file not found: " + path)
    ensures io.fileExists(path) && r.Failure? ==> StartsWith(r.error, "Failed to process image " + path + ": ")
    ensures r.Success? ==> io.fileExists(path) && io.openImage(path).Success?
    ensures r.Success? ==> StartsWith(r.value, JpegDataUriPrefix)
    ensures io.fileExists(path) && io.openImage(path).Failure? ==>
      r == Failure("Failed to process image " + path + ": " + io.openImage(path).error)
    ensures io.fileExists(path) && io.openImage(path).Success? ==>
      (r.Success? <==> ImageToBase64(io.openImage(path).value, io).Success?)
    ensures io.fileExists(path) && io.openImage(path).Success? && ImageToBase64(io.openImage(path).value, io).Failure? ==>
      r == Failure("Failed to process image " + path + ": " + ImageToBase64(io.openImage(path).value, io).error)
  {
    if !io.fileExists(path) then Failure("Image file not found: " + path)
    else
      var prefix := "Failed to process image " + path + ": ";
      match io.openImage(path)
      case Failure(e) => Failure(prefix + e)
      case Success(img) =>
        match ImageToBase64(img, io)
        case Failure(e) => Failure(prefix + e)
        case Success(url) => Success(url)
  }

  /** An input of `ocr_multiple_images`: an in-memory page image, or a path or URL string. */
  datatype Item = Picture(img: Bitmap) | Source(path: string)

  /** The `image_url` of one input: a remote URL verbatim, anything else through an encoder. */
  function ImageUrlOf(item: Item, io: Io): Result<string, string> {
    match item
    case Picture(img) => ImageToBase64(img, io)
    case Source(path) => if IsRemote(path) then Success(path) else EncodeImageBase64(path, io)
  }

  /** The request `ocr_image` sends for `source` with the plain prompt, or the exception that
      stops it before anything is sent. */
  function SingleRequest(source: string, prompt: string, cfg: ApiConfig, io: Io): Result<HttpPost, string> {
    match ImageUrlOf(Source(source), io)
    case Failure(e) => Failure(e)
    case Success(url) => Success(BuildPost(cfg, prompt, url))
  }

  /** A source that starts with http:// or https:// reaches the API verbatim as `image_url.url`;
      any other source is sent as a JPEG data URI built by the local encoder, or not sent at all. */
  lemma SourceDispatch(source: string, prompt: string, cfg: ApiConfig, io: Io)
    ensures IsRemote(source) ==>
      SingleRequest(source, prompt, cfg, io).Success? &&
      ParsePayload(SingleRequest(source, prompt, cfg, io).value.body) == Some(Payload(cfg.model, prompt, source))
    ensures !IsRemote(source) ==>
      (SingleRequest(source, prompt, cfg, io).Success? <==> EncodeImageBase64(source, io).Success?)
    ensures !IsRemote(source) && SingleRequest(source, prompt, cfg, io).Success? ==>
      var p := ParsePayload(SingleRequest(source, prompt, cfg, io).value.body);
      p.Some? && p.value.text == prompt && StartsWith(p.value.imageUrl, JpegDataUriPrefix)
  {
  }

  /** `ocr_image`: the reply to the single request, a failed request turned into its error
      record, or the encoder's exception when nothing could be sent. */
  function OcrImage(source: string, prompt: string, cfg: ApiConfig, io: Io): (r: Result<Value, string>)
    ensures r.Failure? <==> ImageUrlOf(Source(source), io).Failure?
    ensures r.Failure? ==> r.error == ImageUrlOf(Source(source), io).error
    ensures r.Success? ==> r.value == ResponseOf(io.post(BuildPost(cfg, prompt, ImageUrlOf(Source(source), io).value)))
  {
    match SingleRequest(source, prompt, cfg, io)
    case Failure(e) => Failure(e)
    case Success(req) => Success(ResponseOf(io.post(req)))
  }

  /** One element of the list `ocr_multiple_images` returns. */
  datatype PageResult = PageResult(page: nat, response: Value)

  /** The request for input `k` (0-based) of a batch of `|items|`: page `k + 1` of `|items|`. */
  function PageRequest(items: seq<Item>, k: nat, prompt: string, cfg: ApiConfig, io: Io): (r: Result<HttpPost, string>)
    requires k < |items|
    ensures r.Success? <==> ImageUrlOf(items[k], io).Success?
    ensures r.Failure? ==> ImageUrlOf(items[k], io) == Failure(r.error)
  {
    match ImageUrlOf(items[k], io)
    case Failure(e) => Failure(e)
    case Success(url) => Success(BuildPost(cfg, PagePrompt(prompt, k + 1, |items|), url))
  }

  /** Every request of a batch carries the prompt annotated with its own page number and the
      batch size, and the image reference of its own input. */
  lemma PageRequestShape(items: seq<Item>, k: nat, prompt: string, cfg: ApiConfig, io: Io)
    requires k < |items| && ImageUrlOf(items[k], io).Success?
    ensures PageRequest(items, k, prompt, cfg, io).Success?
    ensures ParsePayload(PageRequest(items, k, prompt, cfg, io).value.body)
      == Some(Payload(cfg.model, prompt + " (Page " + NatToString(k + 1) + "/" + NatToString(|items|) + ")",
                      ImageUrlOf(items[k], io).value))
  {
  }

  /** The requests of a batch, in input order; Python builds each just before sending it, which
      is the same thing here since building has no effect. */
  function PageRequests(items: seq<Item>, prompt: string, cfg: ApiConfig, io: Io): (reqs: seq<Result<HttpPost, string>>)
    ensures |reqs| == |items|
    ensures forall k :: 0 <= k < |items| ==> reqs[k] == PageRequest(items, k, prompt, cfg, io)
  {
    seq(|items|, k requires 0 <= k < |items| => PageRequest(items, k, prompt, cfg, io))
  }

  /** The loop of `ocr_multiple_images` from request `from` on: send each request in turn,
      record its reply or its error record, and stop at the first request that could not be built. */
  function PagesFrom(reqs: seq<Result<HttpPost, string>>, from: nat, post: HttpPost -> CallOutcome): (r: Result<seq<PageResult>, string>)
    requires from <= |reqs|
    ensures r.Success? <==> forall k :: from <= k < |reqs| ==> reqs[k].Success?
    ensures r.Success? ==> |r.value| == |reqs| - from
    ensures r.Success? ==> forall k :: from <= k < |reqs| ==>
      r.value[k - from] == PageResult(k + 1, ResponseOf(post(reqs[k].value)))
    ensures r.Failure? ==>
      exists k :: from <= k < |reqs| && reqs[k] == Failure(r.error) && (forall j :: from <= j < k ==> reqs[j].Success?)
    decreases |reqs| - from
  {
    if from == |reqs| then Success([])
    else
      match reqs[from]
      case Failure(e) => Failure(e)
      case Success(req) =>
        var first := PageResult(from + 1, ResponseOf(post(req)));
        match PagesFrom(reqs, from + 1, post)
        case Failure(e) =>
          var k :| from + 1 <= k < |reqs| && reqs[k] == Failure(e) && (forall j :: from + 1 <= j < k ==> reqs[j].Success?);
          assert forall j :: from <= j < k ==> reqs[j].Success?;
          Failure(e)
        case Success(rest) =>
          assert forall i :: 0 <= i < |rest| ==> ([first] + rest)[i + 1] == rest[i];
          Success([first] + rest)
  }

  /** `ocr_multiple_images`: one `{page, response}` per input, pages numbered from 1 in input
      order; a failed request becomes that page's error record and the loop goes on; an input
      that cannot be encoded raises, and the first such exception ends the whole batch. */
  function OcrMultipleImages(items: seq<Item>, prompt: string, cfg: ApiConfig, io: Io): (r: Result<seq<PageResult>, string>)
    ensures r.Success? <==> forall k :: 0 <= k < |items| ==> ImageUrlOf(items[k], io).Success?
    ensures r.Success? ==> |r.value| == |items|
    ensures r.Success? ==> forall k :: 0 <= k < |items| ==>
      r.value[k].page == k + 1 &&
      r.value[k].response == ResponseOf(io.post(PageRequest(items, k, prompt, cfg, io).value))
    ensures r.Failure? ==>
      exists k :: 0 <= k < |items| && ImageUrlOf(items[k], io) == Failure(r.error) && (forall j :: 0 <= j < k ==> ImageUrlOf(items[j], io).Success?)
  {
    BatchSucceeds(items, prompt, cfg, io);
    BatchFails(items, prompt, cfg, io);
    var r := PagesFrom(PageRequests(items, prompt, cfg, io), 0, io.post);
    if r.Success? then
      BatchPages(items, prompt, cfg, io);
      r
    else r
  }

  lemma BatchPages(items: seq<Item>, prompt: string, cfg: ApiConfig, io: Io)
    requires forall k :: 0 <= k < |items| ==> ImageUrlOf(items[k], io).Success?
    ensures PagesFrom(PageRequests(items, prompt, cfg, io), 0, io.post).Success?
    ensures var pages := PagesFrom(PageRequests(items, prompt, cfg, io), 0, io.post).value;
      && |pages| == |items|
      && forall k :: 0 <= k < |items| ==>
        pages[k].page == k + 1 &&
        pages[k].response == ResponseOf(io.post(PageRequest(items, k, prompt, cfg, io).value))
  {
    BatchSucceeds(items, prompt, cfg, io);
    var reqs := PageRequests(items, prompt, cfg, io);
    var pages := PagesFrom(reqs, 0, io.post).value;
    forall k | 0 <= k < |items|
      ensures pages[k].page == k + 1
      ensures pages[k].response == ResponseOf(io.post(PageRequest(items, k, prompt, cfg, io).value))
    {
      assert reqs[k] == PageRequest(items, k, prompt, cfg, io);
      assert pages[k - 0] == PageResult(k + 1, ResponseOf(io.post(reqs[k].value)));
    }
  }

  lemma BatchSucceeds(items: seq<Item>, prompt: string, cfg: ApiConfig, io: Io)
    ensures PagesFrom(PageRequests(items, prompt, cfg, io), 0, io.post).Success?
      <==> forall k :: 0 <= k < |items| ==> ImageUrlOf(items[k], io).Success?
  {
    var reqs := PageRequests(items, prompt, cfg, io);
    forall k | 0 <= k < |items|
      ensures reqs[k].Success? <==> ImageUrlOf(items[k], io).Success?
    {
    }
  }

  lemma BatchFails(items: seq<Item>, prompt: string, cfg: ApiConfig, io: Io)
    ensures var r := PagesFrom(PageRequests(items, prompt, cfg, io), 0, io.post);
      r.Failure? ==> exists k :: (0 <= k < |items| && ImageUrlOf(items[k], io) == Failure(r.error)
        && (forall j :: 0 <= j < k ==> ImageUrlOf(items[j], io).Success?))
  {
    var reqs := PageRequests(items, prompt, cfg, io);
    var r := PagesFrom(reqs, 0, io.post);
    if r.Failure? {
      var k :| 0 <= k < |reqs| && reqs[k] == Failure(r.error) && (forall j :: 0 <= j < k ==> reqs[j].Success?);
      assert ImageUrlOf(items[k], io) == Failure(r.error);
      forall j | 0 <= j < k
        ensures ImageUrlOf(items[j], io).Success?
      {
        assert reqs[j].Success?;
      }
    }
  }

  /** A request that fails for page `k` is recorded as page `k`'s error record, carrying the
      exception text and status code, while every other page keeps its own reply. */
  lemma FailedPageIsRecorded(items: seq<Item>, prompt: string, cfg: ApiConfig, io: Io, k: nat, message: string, code: Option<int>)
    requires k < |items| && forall j :: 0 <= j < |items| ==> ImageUrlOf(items[j], io).Success?
    requires io.post(PageRequest(items, k, prompt, cfg, io).value) == RequestFailed(message, code)
    ensures var pages := OcrMultipleImages(items, prompt, cfg, io).value;
      && |pages| == |items|
      && pages[k] == PageResult(k + 1, ErrorJson(message, code))
      && forall j :: 0 <= j < |items| && j != k ==>
        pages[j].page == j + 1 && pages[j].response == ResponseOf(io.post(PageRequest(items, j, prompt, cfg, io).value))
  {
  }

  /** With the API unreachable, a batch whose inputs all encode still completes: every page
      holds the error record of its own failed call, numbered in input order. */
  lemma UnreachableApiRecordsEveryPage(items: seq<Item>, prompt: string, cfg: ApiConfig, io: Io, message: string, code: Option<int>)
    requires forall j :: 0 <= j < |items| ==> ImageUrlOf(items[j], io).Success?
    requires forall req :: io.post(req) == RequestFailed(message, code)
    ensures OcrMultipleImages(items, prompt, cfg, io).Success?
    ensures |OcrMultipleImages(items, prompt, cfg, io).value| == |items|
    ensures forall k :: 0 <= k < |items| ==>
      OcrMultipleImages(items, prompt, cfg, io).value[k] == PageResult(k + 1, ErrorJson(message, code))
  {
    var r := OcrMultipleImages(items, prompt, cfg, io);
    forall k | 0 <= k < |items|
      ensures r.value[k] == PageResult(k + 1, ErrorJson(message, code))
    {
      assert ResponseOf(RequestFailed(message, code)) == ErrorJson(message, code);
    }
  }

  /** A batch of page images completes when every page has positive sides, neither more than
      1024 times the other. */
  lemma PicturesAlwaysEncode(imgs: seq<Bitmap>, prompt: string, cfg: ApiConfig, io: Io)
    requires forall i :: 0 <= i < |imgs| ==> imgs[i].width > 0 && imgs[i].height > 0
    requires forall i :: 0 <= i < |imgs| ==>
      imgs[i].height <= MaxHeight * imgs[i].width && imgs[i].width <= MaxWidth * imgs[i].height
    ensures OcrMultipleImages(Pictures(imgs), prompt, cfg, io).Success?
    ensures |OcrMultipleImages(Pictures(imgs), prompt, cfg, io).value| == |imgs|
  {
    var items := Pictures(imgs);
    forall k | 0 <= k < |items|
      ensures ImageUrlOf(items[k], io).Success?
    {
      ResizeFailsIffElongated(imgs[k], io);
    }
  }

  /** A single page 1 pixel wide and 3000 high ends the whole batch with Pillow's error. */
  lemma ElongatedPageAbortsBatch(pixels: seq<int>, prompt: string, cfg: ApiConfig, io: Io)
    ensures OcrMultipleImages([Picture(Bitmap(1, 3000, pixels))], prompt, cfg, io) == Failure(EmptyTargetMessage)
  {
    var img := Bitmap(1, 3000, pixels);
    Resize.ExtremeAspectTruncatesToZero();
    assert ResizeImage(img, io) == Failure(EmptyTargetMessage);
    assert ImageUrlOf(Picture(img), io) == Failure(EmptyTargetMessage);
  }

  /** `pdf_to_images`: the backend check comes before the existence check. */
  function PdfToImages(path: string, dpi: int, io: Io): Result<seq<Bitmap>, string> {
    if !io.pdfBackend then Failure(NoPdfBackendMessage)
    else if !io.fileExists(path) then Failure("PDF file not found: " + path)
    else io.renderPdf(path, dpi)
  }

  function Pictures(imgs: seq<Bitmap>): (items: seq<Item>)
    ensures |items| == |imgs| && forall i :: 0 <= i < |imgs| ==> items[i] == Picture(imgs[i])
  {
    seq(|imgs|, i requires 0 <= i < |imgs| => Picture(imgs[i]))
  }

  /** `process_pdf`: rasterise, then one page-annotated request per page. */
  function ProcessPdf(path: string, prompt: string, dpi: int, cfg: ApiConfig, io: Io): (r: Result<seq<PageResult>, string>)
    ensures !io.pdfBackend ==> r == Failure(NoPdfBackendMessage)
    ensures io.pdfBackend && !io.fileExists(path) ==> r == Failure("PDF file not found: " + path)
    ensures PdfToImages(path, dpi, io).Failure? ==> r == Failure(PdfToImages(path, dpi, io).error)
    ensures r.Success? ==> PdfToImages(path, dpi, io).Success? && |r.value| == |PdfToImages(path, dpi, io).value|
    ensures r.Success? ==> forall k :: 0 <= k < |r.value| ==> r.value[k].page == k + 1
    ensures PdfToImages(path, dpi, io).Success? ==>
      (r.Success? <==> forall k :: 0 <= k < |PdfToImages(path, dpi, io).value| ==>
        ImageUrlOf(Picture(PdfToImages(path, dpi, io).value[k]), io).Success?)
    ensures r.Success? ==> forall k :: 0 <= k < |r.value| ==>
      r.value[k].response == ResponseOf(io.post(PageRequest(Pictures(PdfToImages(path, dpi, io).value), k, prompt, cfg, io).value))
  {
    match PdfToImages(path, dpi, io)
    case Failure(e) => Failure(e)
    case Success(imgs) => OcrMultipleImages(Pictures(imgs), prompt, cfg, io)
  }

  /** With no PDF library installed, a missing file still reports the install hint, never
      "PDF file not found": the backend is checked before the file. */
  lemma BackendCheckedBeforeFile(path: string, prompt: string, dpi: int, cfg: ApiConfig, io: Io)
    requires !io.pdfBackend && !io.fileExists(path)
    ensures ProcessPdf(path, prompt, dpi, cfg, io) == Failure(NoPdfBackendMessage)
    ensures ProcessPdf(path, prompt, dpi, cfg, io) != Failure("PDF file not found: " + path)
  {
    assert NoPdfBackendMessage[0] == "No PDF library available. "[0] == 'N';
    assert ("PDF file not found: " + path)[0] == 'P';
  }
}

=== FILE: request.dfy ===
/** Building the chat-completion request that `OCRApp` sends for one image: the remote-URL
    test that decides whether a source is forwarded verbatim, the page-annotated prompt of a
    batch, the JSON body with one text part and one image part, and the POST around it. */
module Request {
  import opened Wrappers
  import opened Text
  import opened Json

  /** `s.startswith(('http://', 'https://'))`; the test is case-sensitive. */
  predicate IsRemote(s: string) {
    StartsWith(s, "http://") || StartsWith(s, "https://")
  }

  /** Endpoint, bearer key and model name of one `OCRApp` instance. */
  datatype ApiConfig = ApiConfig(url: Option<string>, key: string, model: string)

  const DefaultModel := "qwen2-vl-32b-instruct-awq"
  const TimeoutSeconds := 300

  /** What varies between two requests: the model name, the text part and the image reference. */
  datatype Payload = Payload(model: string, text: string, imageUrl: string)

  /** The JSON body `{model, messages: [{role: "user", content: [text part, image_url part]}]}`. */
  function PayloadJson(p: Payload): Value {
    Object([
      Member("model", Str(p.model)),
      Member("messages", Array([UserMessage(p.text, p.imageUrl)]))
    ])
  }

  function UserMessage(text: string, imageUrl: string): Value {
    Object([
      Member("role", Str("user")),
      Member("content", Array([TextPart(text), ImagePart(imageUrl)]))
    ])
  }

  function TextPart(text: string): Value {
    Object([Member("type", Str("text")), Member("text", Str(text))])
  }

  function ImagePart(imageUrl: string): Value {
    Object([
      Member("type", Str("image_url")),
      Member("image_url", Object([Member("url", Str(imageUrl))]))
    ])
  }

  const ModelPath: seq<Step> := [Key("model")]
  const RolePath: seq<Step> := [Key("messages"), Index(0), Key("role")]
  const TextTypePath: seq<Step> := [Key("messages"), Index(0), Key("content"), Index(0), Key("type")]
  const TextPath: seq<Step> := [Key("messages"), Index(0), Key("content"), Index(0), Key("text")]
  const ImageTypePath: seq<Step> := [Key("messages"), Index(0), Key("content"), Index(1), Key("type")]
  const UrlPath: seq<Step> := [Key("messages"), Index(0), Key("content"), Index(1), Key("image_url"), Key("url")]

  /** Reads a request body back, as the remote model would: `None` unless the first message
      is a user message whose first part is a text part and whose second is an image_url part. */
  function ParsePayload(v: Value): Option<Payload> {
    if Walk(v, RolePath) == Found(Str("user"))
      && Walk(v, TextTypePath) == Found(Str("text"))
      && Walk(v, ImageTypePath) == Found(Str("image_url"))
    then
      match (Walk(v, ModelPath), Walk(v, TextPath), Walk(v, UrlPath))
      case (Found(Str(m)), Found(Str(t)), Found(Str(u))) => Some(Payload(m, t, u))
      case _ => None
    else None
  }

  /** The body carries exactly the model, the text and the image reference it was built from. */
  lemma PayloadRoundTrip(p: Payload)
    ensures ParsePayload(PayloadJson(p)) == Some(p)
  {
    PayloadFields(p);
  }

  /** Each field of the body sits where the remote API looks for it. */
  lemma PayloadFields(p: Payload)
    ensures Walk(PayloadJson(p), ModelPath) == Found(Str(p.model))
    ensures Walk(PayloadJson(p), RolePath) == Found(Str("user"))
    ensures Walk(PayloadJson(p), TextTypePath) == Found(Str("text"))
    ensures Walk(PayloadJson(p), TextPath) == Found(Str(p.text))
    ensures Walk(PayloadJson(p), ImageTypePath) == Found(Str("image_url"))
    ensures Walk(PayloadJson(p), UrlPath) == Found(Str(p.imageUrl))
  {
    var v := PayloadJson(p);
    var message := UserMessage(p.text, p.imageUrl);
    assert Get(v.members, "model") == Some(Str(p.model));
    assert Walk(v, [Key("messages"), Index(0)]) == Found(message) by {
      assert Get(v.members, "messages") == Some(Array([message]));
    }
    MessageFields(p);
    WalkAppend(v, [Key("messages"), Index(0)], [Key("role")]);
    WalkAppend(v, [Key("messages"), Index(0)], [Key("content"), Index(0), Key("text")]);
    WalkAppend(v, [Key("messages"), Index(0)], [Key("content"), Index(0), Key("type")]);
    WalkAppend(v, [Key("messages"), Index(0)], [Key("content"), Index(1), Key("type")]);
    WalkAppend(v, [Key("messages"), Index(0)], [Key("content"), Index(1), Key("image_url"), Key("url")]);
  }

  lemma MessageFields(p: Payload)
    ensures var message := UserMessage(p.text, p.imageUrl);
      && Walk(message, [Key("role")]) == Found(Str("user"))
      && Walk(message, [Key("content"), Index(0), Key("type")]) == Found(Str("text"))
      && Walk(message, [Key("content"), Index(0), Key("text")]) == Found(Str(p.text))
      && Walk(message, [Key("content"), Index(1), Key("type")]) == Found(Str("image_url"))
      && Walk(message, [Key("content"), Index(1), Key("image_url"), Key("url")]) == Found(Str(p.imageUrl))
  {
    var message := UserMessage(p.text, p.imageUrl);
    var parts := [TextPart(p.text), ImagePart(p.imageUrl)];
    assert Get(message.members, "role") == Some(Str("user"));
    assert Get(message.members, "content") == Some(Array(parts));
    assert Walk(message, [Key("content"), Index(0)]) == Found(TextPart(p.text));
    assert Walk(message, [Key("content"), Index(1)]) == Found(ImagePart(p.imageUrl));
    PartFields(p.text, p.imageUrl);
    WalkAppend(message, [Key("content"), Index(0)], [Key("type")]);
    WalkAppend(message, [Key("content"), Index(0)], [Key("text")]);
    WalkAppend(message, [Key("content"), Index(1)], [Key("type")]);
    WalkAppend(message, [Key("content"), Index(1)], [Key("image_url"), Key("url")]);
  }

  lemma PartFields(text: string, imageUrl: string)
    ensures Walk(TextPart(text), [Key("type")]) == Found(Str("text"))
    ensures Walk(TextPart(text), [Key("text")]) == Found(Str(text))
    ensures Walk(ImagePart(imageUrl), [Key("type")]) == Found(Str("image_url"))
    ensures Walk(ImagePart(imageUrl), [Key("image_url"), Key("url")]) == Found(Str(imageUrl))
  {
    assert Get(TextPart(text).members, "type") == Some(Str("text"));
    assert Get(ImagePart(imageUrl).members, "type") == Some(Str("image_url"));
  }

  /** Walking a concatenated path is walking its first half, then its second from there. */
  lemma {:induction false} WalkAppend(v: Value, p: seq<Step>, q: seq<Step>)
    requires Walk(v, p).Found?
    ensures Walk(v, p + q) == Walk(Walk(v, p).value, q)
    decreases |p|
  {
    if p == [] {
      assert p + q == q;
    } else {
      assert (p + q)[0] == p[0] && (p + q)[1..] == p[1..] + q;
      WalkAppend(Subscript(v, p[0]).value, p[1..], q);
    }
  }

  /** One HTTP POST: endpoint (possibly unset), headers, JSON body and timeout in seconds. */
  datatype HttpPost = HttpPost(url: Option<string>, headers: seq<(string, string)>, body: Value, timeout: nat)

  /** The POST `OCRApp` sends for one text part and one image reference. */
  function BuildPost(cfg: ApiConfig, text: string, imageUrl: string): (r: HttpPost)
    ensures r.url == cfg.url && r.timeout == TimeoutSeconds
    ensures ("Authorization", "Bearer " + cfg.key) in r.headers
    ensures ("Content-Type", "application/json") in r.headers
    ensures ParsePayload(r.body) == Some(Payload(cfg.model, text, imageUrl))
  {
    PayloadRoundTrip(Payload(cfg.model, text, imageUrl));
    HttpPost(
      cfg.url,
      [("Content-Type", "application/json"), ("Authorization", "Bearer " + cfg.key)],
      PayloadJson(Payload(cfg.model, text, imageUrl)),
      TimeoutSeconds)
  }

  /** The text part of page `page` of a batch of `total`: the prompt, then " (Page page/total)". */
  function PagePrompt(prompt: string, page: nat, total: nat): (r: string)
    ensures StartsWith(r, prompt)
    ensures EndsWith(r, "/" + NatToString(total) + ")")
  {
    var r := prompt + " (Page " + NatToString(page) + "/" + NatToString(total) + ")";
    assert r[..|prompt|] == prompt;
    assert r[|r| - |"/" + NatToString(total) + ")"|..] == "/" + NatToString(total) + ")";
    r
  }

  /** Two digit strings each followed by '/' can only be joined to equal texts if they are equal. */
  lemma DigitsBeforeSlash(a: string, b: string, s: string, t: string)
    requires AllDigits(a) && AllDigits(b) && a + "/" + s == b + "/" + t
    ensures a == b && s == t
  {
    var x := a + "/" + s;
    assert x[|a|] == '/' && x[|b|] == '/';
    assert |a| < |b| ==> x[|a|] == b[|a|] && IsDigit(b[|a|]);
    assert |b| < |a| ==> x[|b|] == a[|b|] && IsDigit(a[|b|]);
    assert a == x[..|a|] == b;
    assert s == x[|a| + 1..] == t;
  }

  /** The page annotation identifies the page: distinct pages (or batch sizes) get distinct prompts. */
  lemma PagePromptInjective(prompt: string, i: nat, n: nat, j: nat, m: nat)
    requires PagePrompt(prompt, i, n) == PagePrompt(prompt, j, m)
    ensures i == j && n == m
  {
    var head := prompt + " (Page ";
    var x := PagePrompt(prompt, i, n);
    assert x == head + (NatToString(i) + "/" + (NatToString(n) + ")"));
    assert x == head + (NatToString(j) + "/" + (NatToString(m) + ")"));
    assert NatToString(i) + "/" + (NatToString(n) + ")") == x[|head|..];
    assert NatToString(j) + "/" + (NatToString(m) + ")") == x[|head|..];
    DigitsBeforeSlash(NatToString(i), NatToString(j), NatToString(n) + ")", NatToString(m) + ")");
    assert NatToString(n) == (NatToString(n) + ")")[..|NatToString(n)|];
    assert NatToString(m) == (NatToString(m) + ")")[..|NatToString(m)|];
  }
}

=== FILE: resize.dfy ===
/** The dimension arithmetic of `OCRApp.resize_image_if_needed`: an image that fits the
    bounding box keeps its size; otherwise both sides are multiplied by
    `ratio = min(max_width / width, max_height / height)` and truncated to integers.
    The ratio is kept as an exact fraction `num / den` (Python computes it in floating point). */
module Resize {

  datatype Size = Size(width: int, height: int)

  predicate Fits(w: int, h: int, maxW: int, maxH: int) {
    w <= maxW && h <= maxH
  }

  /** `min(maxW / w, maxH / h)` as the fraction `num / den`; on a tie Python's `min` keeps its
      first argument, and both readings denote the same number. The fraction respects both
      bounds and meets at least one of them exactly, which is what makes it the minimum. */
  function Ratio(w: int, h: int, maxW: nat, maxH: nat): (r: (nat, int))
    requires w > 0 && h > 0
    ensures r.1 > 0
    ensures r.0 * w <= maxW * r.1 && r.0 * h <= maxH * r.1
    ensures r.0 * w == maxW * r.1 || r.0 * h == maxH * r.1
  {
    if maxH * w < maxW * h then (maxH, h) else (maxW, w)
  }

  /** `int(x * (num / den))` for a positive side `x`: the floor of the exact product. */
  function Scale(x: int, num: nat, den: int): (r: int)
    requires x > 0 && den > 0
    ensures 0 <= r
    ensures r * den <= x * num < (r + 1) * den
  {
    var q := x * num / den;
    assert x * num == den * q + (x * num) % den;
    q
  }

  /** `(new_width, new_height)` as computed by `resize_image_if_needed`. */
  function NewSize(w: int, h: int, maxW: nat, maxH: nat): (r: Size)
    requires w > 0 && h > 0
    ensures Fits(w, h, maxW, maxH) ==> r == Size(w, h)
    ensures !Fits(w, h, maxW, maxH) ==> 0 <= r.width && 0 <= r.height && Fits(r.width, r.height, maxW, maxH)
    ensures !Fits(w, h, maxW, maxH) ==> r.width <= w && r.height <= h
  {
    if Fits(w, h, maxW, maxH) then Size(w, h)
    else
      var (num, den) := Ratio(w, h, maxW, maxH);
      var r := Size(Scale(w, num, den), Scale(h, num, den));
      ScaledWithin(w, num, den, maxW);
      ScaledWithin(h, num, den, maxH);
      RatioBelowOne(w, h, maxW, maxH);
      MulMonotone(w, num, den);
      MulMonotone(h, num, den);
      ScaledWithin(w, num, den, w);
      ScaledWithin(h, num, den, h);
      r
  }

  /** A side scaled by `num / den` stays within any bound `b` with `x * num <= b * den`. */
  lemma ScaledWithin(x: int, num: nat, den: int, b: int)
    requires x > 0 && den > 0 && x * num <= b * den
    ensures Scale(x, num, den) <= b
  {
    CancelLe(Scale(x, num, den), b, den);
  }

  lemma MulMonotone(x: int, a: int, b: int)
    requires x >= 0 && a <= b
    ensures x * a <= b * x
  {
  }

  lemma MulStrict(x: int, a: int, b: int)
    requires x > 0 && a < b
    ensures x * a < b * x
  {
  }

  lemma CancelLe(a: int, b: int, d: int)
    requires d > 0 && a * d <= b * d
    ensures a <= b
  {
    if a > b {
      MulStrict(d, b, a);
    }
  }

  lemma CancelLt(a: int, b: int, d: int)
    requires d > 0 && a * d < b * d
    ensures a < b
  {
    if a >= b {
      MulMonotone(d, b, a);
    }
  }

  /** Outside the box the ratio is strictly below one, so resizing only ever shrinks. */
  lemma RatioBelowOne(w: int, h: int, maxW: nat, maxH: nat)
    requires w > 0 && h > 0 && !Fits(w, h, maxW, maxH)
    ensures Ratio(w, h, maxW, maxH).0 < Ratio(w, h, maxW, maxH).1
  {
    if maxH * w < maxW * h {
      if h <= maxH {
        MulMonotone(maxH, maxW, w);
        MulMonotone(maxW, h, maxH);
        assert false;
      }
    } else {
      if w <= maxW {
        MulMonotone(maxW, maxH, h);
        MulMonotone(maxH, w, maxW);
        assert false;
      }
    }
  }

  /** The new size is the floor of the exact scaled size: `new * den <= old * num < (new + 1) * den`. */
  lemma NewSizeIsFloor(w: int, h: int, maxW: nat, maxH: nat)
    requires w > 0 && h > 0 && !Fits(w, h, maxW, maxH)
    ensures var (num, den) := Ratio(w, h, maxW, maxH);
      var r := NewSize(w, h, maxW, maxH);
      && r.width * den <= w * num < (r.width + 1) * den
      && r.height * den <= h * num < (r.height + 1) * den
  {
  }

  /** The resized image touches the box: the side whose bound gave the ratio lands exactly on it. */
  lemma NewSizeMeetsABound(w: int, h: int, maxW: nat, maxH: nat)
    requires w > 0 && h > 0 && !Fits(w, h, maxW, maxH)
    ensures NewSize(w, h, maxW, maxH).width == maxW || NewSize(w, h, maxW, maxH).height == maxH
  {
    var (num, den) := Ratio(w, h, maxW, maxH);
    if maxH * w < maxW * h {
      assert num == maxH && den == h;
      var q := Scale(h, maxH, h);
      assert NewSize(w, h, maxW, maxH).height == q;
      CancelLe(q, maxH, h);
      CancelLt(maxH, q + 1, h);
    } else {
      assert num == maxW && den == w;
      var q := Scale(w, maxW, w);
      assert NewSize(w, h, maxW, maxH).width == q;
      CancelLe(q, maxW, w);
      CancelLt(maxW, q + 1, w);
    }
  }

  /** Two sides floored from the same exact ratio differ, cross-multiplied, by less than the
      multiplier of the first: `p * y < (q + 1) * x`. */
  lemma CrossFloor(p: int, q: int, x: int, y: int, num: nat, den: int)
    requires x > 0 && y > 0 && den > 0
    requires p * den <= x * num && y * num < (q + 1) * den
    ensures p * y < (q + 1) * x
  {
    MulMonotone(y, p * den, x * num);
    MulStrict(x, y * num, (q + 1) * den);
    assert (p * y) * den < ((q + 1) * x) * den;
    CancelLt(p * y, (q + 1) * x, den);
  }

  /** The aspect ratio survives up to truncation: cross-multiplied, the new sides differ from
      the old proportion by less than one old side, i.e. by less than one new pixel. */
  lemma NewSizeKeepsAspect(w: int, h: int, maxW: nat, maxH: nat)
    requires w > 0 && h > 0 && !Fits(w, h, maxW, maxH)
    ensures var r := NewSize(w, h, maxW, maxH);
      && r.width * h - r.height * w < w
      && r.height * w - r.width * h < h
  {
    var (num, den) := Ratio(w, h, maxW, maxH);
    var a, b := Scale(w, num, den), Scale(h, num, den);
    assert NewSize(w, h, maxW, maxH) == Size(a, b);
    CrossFloor(a, b, w, h, num, den);
    CrossFloor(b, a, h, w, num, den);
  }

  /** The truncation can reach zero: a 1 x 3000 page scaled into the default 1024 x 1024 box
      comes out 0 pixels wide, a target the image library then refuses. */
  lemma ExtremeAspectTruncatesToZero()
    ensures NewSize(1, 3000, 1024, 1024) == Size(0, 1024)
  {
  }

  /** A scaled side is at least one pixel exactly when the exact product reaches one. */
  lemma ScalePositive(x: int, num: nat, den: int)
    requires x > 0 && den > 0
    ensures Scale(x, num, den) > 0 <==> x * num >= den
  {
    var r := Scale(x, num, den);
    if r > 0 {
      MulMonotone(den, 1, r);
    }
  }

  /** In a square box of side `m`, an image outside the box keeps both sides at least one pixel
      exactly when neither side is more than `m` times the other. */
  lemma NewSizePositiveInSquareBox(w: int, h: int, m: nat)
    requires w > 0 && h > 0 && m > 0 && !Fits(w, h, m, m)
    ensures NewSize(w, h, m, m).width > 0 && NewSize(w, h, m, m).height > 0 <==> h <= m * w && w <= m * h
  {
    if m * w < m * h {
      CancelLt(w, h, m);
      assert Ratio(w, h, m, m) == (m, h);
      assert NewSize(w, h, m, m) == Size(Scale(w, m, h), Scale(h, m, h));
      TallerSidePositive(w, h, m);
    } else {
      CancelLe(h, w, m);
      assert Ratio(w, h, m, m) == (m, w);
      assert NewSize(w, h, m, m) == Size(Scale(w, m, w), Scale(h, m, w));
      TallerSidePositive(h, w, m);
    }
  }

  /** The square-box case where the side `b` sets the ratio `m / b`: the long side lands on `m`,
      the short side `a` stays positive iff `a * m` reaches `b`. */
  lemma TallerSidePositive(a: int, b: int, m: nat)
    requires a > 0 && b > 0 && m > 0 && a <= b
    ensures Scale(b, m, b) > 0
    ensures Scale(a, m, b) > 0 <==> b <= m * a
    ensures a <= m * b
  {
    ScalePositive(b, m, b);
    ScalePositive(a, m, b);
    MulMonotone(b, 1, m);
    assert a * m == m * a;
  }
}

=== FILE: text.dfy ===
/** String and integer helpers with the meaning of the Python built-ins the OCR
    application relies on: `str.startswith`, `str.endswith`, `in` on strings,
    `str.lower` (ASCII letters only), `str.rsplit(sep, 1)`, `str(n)` and `int(s)`. */
module Text {
  import opened Wrappers

  predicate StartsWith(s: string, prefix: string) {
    |prefix| <= |s| && s[..|prefix|] == prefix
  }

  predicate EndsWith(s: string, suffix: string) {
    |suffix| <= |s| && s[|s| - |suffix|..] == suffix
  }

  /** Python's `needle in haystack` for two strings. */
  predicate IsInfix(needle: string, haystack: string)
    decreases |haystack|
  {
    StartsWith(haystack, needle) || (|haystack| > 0 && IsInfix(needle, haystack[1..]))
  }

  function LowerChar(c: char): char {
    if 'A' <= c <= 'Z' then (c as int + 32) as char else c
  }

  /** `s.lower()`, restricted to the ASCII letters. */
  function Lower(s: string): (r: string)
    ensures |r| == |s|
    ensures forall i :: 0 <= i < |s| ==> r[i] == LowerChar(s[i])
  {
    if s == [] then [] else [LowerChar(s[0])] + Lower(s[1..])
  }

  lemma LowerIdempotent(s: string)
    ensures Lower(Lower(s)) == Lower(s)
  {
  }

  lemma LowerAppend(a: string, b: string)
    ensures Lower(a + b) == Lower(a) + Lower(b)
  {
  }

  /** Lowering never creates or removes a given non-letter character such as '.' or '/'. */
  lemma LowerKeepsChar(s: string, c: char)
    requires !('A' <= c <= 'Z') && !('a' <= c <= 'z')
    ensures c in Lower(s) <==> c in s
  {
    if c in s {
      var i :| 0 <= i < |s| && s[i] == c;
      assert Lower(s)[i] == c;
    }
    if c in Lower(s) {
      var i :| 0 <= i < |Lower(s)| && Lower(s)[i] == c;
      assert s[i] == c;
    }
  }

  /** Index of the last occurrence of `c` in `s`, or `None` when `c` does not occur. */
  function LastIndex(s: string, c: char): (r: Option<nat>)
    ensures r.None? <==> c !in s
    ensures r.Some? ==> r.value < |s| && s[r.value] == c && c !in s[r.value + 1..]
  {
    if s == [] then None
    else if s[|s| - 1] == c then Some(|s| - 1)
    else
      assert s == s[..|s| - 1] + [s[|s| - 1]];
      LastIndex(s[..|s| - 1], c)
  }

  /** `s.rsplit(c, 1)[1]`: the text after the last `c`. */
  function AfterLast(s: string, c: char): (r: string)
    requires c in s
    ensures c !in r
    ensures EndsWith(s, [c] + r)
  {
    var i := LastIndex(s, c).value;
    assert s[|s| - |[c] + s[i + 1..]|..] == [c] + s[i + 1..];
    s[i + 1..]
  }

  /** When the text after some `c` holds no further `c`, that `c` is the last one. */
  lemma {:induction false} LastIndexOfJoin(base: string, c: char, tail: string)
    requires c !in tail
    ensures LastIndex(base + [c] + tail, c) == Some(|base|)
  {
    var s := base + [c] + tail;
    if tail != [] {
      assert s[..|s| - 1] == base + [c] + tail[..|tail| - 1];
      assert s[|s| - 1] == tail[|tail| - 1];
      LastIndexOfJoin(base, c, tail[..|tail| - 1]);
    }
  }

  /** The text after the last `c` of `base + [c] + tail` is `tail` whenever `tail` holds no `c`. */
  lemma AfterLastOfJoin(base: string, c: char, tail: string)
    requires c !in tail
    ensures AfterLast(base + [c] + tail, c) == tail
  {
    LastIndexOfJoin(base, c, tail);
    assert (base + [c] + tail)[|base| + 1..] == tail;
  }

  /** Every text holding `c` is the text before its last `c`, that `c`, and the text after it. */
  lemma SplitAtLast(s: string, c: char)
    requires c in s
    ensures s == BeforeLast(s, c) + [c] + AfterLast(s, c)
  {
    var i := LastIndex(s, c).value;
    assert s == s[..i] + [c] + s[i + 1..];
  }

  /** Joining two texts with a `c` that the second does not contain splits back into them. */
  lemma SplitOfJoin(base: string, c: char, tail: string)
    requires c !in tail
    ensures c in base + [c] + tail
    ensures BeforeLast(base + [c] + tail, c) == base && AfterLast(base + [c] + tail, c) == tail
  {
    var s := base + [c] + tail;
    assert s[|base|] == c;
    AfterLastOfJoin(base, c, tail);
    assert s[..|s| - |tail| - 1] == base;
  }

  /** `s.rsplit(c, 1)[0]`: the text before the last `c`. */
  function BeforeLast(s: string, c: char): (r: string)
    requires c in s
    ensures |r| + 1 + |AfterLast(s, c)| == |s|
  {
    s[..|s| - |AfterLast(s, c)| - 1]
  }

  /** Lowering keeps the last non-letter `c` where it was, so the text after it in the lowered
      string is the lowered text after it. */
  lemma AfterLastLower(s: string, c: char)
    requires !('A' <= c <= 'Z') && !('a' <= c <= 'z') && c in s
    ensures c in Lower(s)
    ensures AfterLast(Lower(s), c) == Lower(AfterLast(s, c))
  {
    var ext := AfterLast(s, c);
    var base := BeforeLast(s, c);
    SplitAtLast(s, c);
    LowerAppend(base + [c], ext);
    LowerAppend(base, [c]);
    assert Lower([c]) == [c];
    LowerKeepsChar(ext, c);
    LowerKeepsChar(s, c);
    AfterLastOfJoin(Lower(base), c, Lower(ext));
  }

  // Decimal digits

  predicate IsDigit(c: char) {
    '0' <= c <= '9'
  }

  predicate AllDigits(s: string) {
    forall i :: 0 <= i < |s| ==> IsDigit(s[i])
  }

  function DigitChar(d: nat): char
    requires d < 10
  {
    ('0' as int + d) as char
  }

  function DigitValue(c: char): nat
    requires IsDigit(c)
  {
    c as int - '0' as int
  }

  /** The number a string of decimal digits denotes, most significant digit first. */
  function ParseDigits(s: string): nat
    requires AllDigits(s)
  {
    if s == [] then 0 else 10 * ParseDigits(s[..|s| - 1]) + DigitValue(s[|s| - 1])
  }

  /** `str(n)` for a non-negative integer: a non-empty digit string that denotes `n`. */
  function NatToString(n: nat): (r: string)
    ensures |r| > 0 && AllDigits(r)
    ensures ParseDigits(r) == n
  {
    if n < 10 then [DigitChar(n)]
    else
      var r := NatToString(n / 10) + [DigitChar(n % 10)];
      assert r[..|r| - 1] == NatToString(n / 10);
      r
  }

  /** `str(i)` for any integer. */
  function IntToString(i: int): string {
    if i < 0 then "-" + NatToString(-i) else NatToString(i)
  }

  /** `int(s)` for an optional sign followed by decimal digits; `None` where Python raises `ValueError`. */
  function ParseInt(s: string): Option<int> {
    if |s| > 1 && (s[0] == '-' || s[0] == '+') && AllDigits(s[1..]) then
      var magnitude: int := ParseDigits(s[1..]);
      Some(if s[0] == '-' then -magnitude else magnitude)
    else if |s| > 0 && AllDigits(s) then Some(ParseDigits(s))
    else None
  }

  lemma ParseIntRoundTrip(i: int)
    ensures ParseInt(IntToString(i)) == Some(i)
  {
    if i < 0 {
      assert IntToString(i)[1..] == NatToString(-i);
    }
  }

  /** `sep.join(parts)`. */
  function Join(parts: seq<string>, sep: string): string {
    if parts == [] then ""
    else if |parts| == 1 then parts[0]
    else parts[0] + sep + Join(parts[1..], sep)
  }
}

=== FILE: web.dfy ===
/** The Flask front end in app.py: the upload whitelist, the model table read from the
    environment, the ordered checks of `POST /api/ocr` (each of which answers before anything
    is written to disk), the file name an upload is saved under, the shape of a successful
    reply, and the `GET /api/config` summary. */
module Web {
  import opened Wrappers
  import opened Text
  import opened Json
  import opened Request
  import opened Pipeline

  // The upload whitelist

  /** `ALLOWED_EXTENSIONS`; a Python set, listed here in the order of its declaration. */
  const AllowedExtensions: seq<string> := ["png", "jpg", "jpeg", "gif", "bmp", "webp", "pdf"]

  /** `allowed_file`: the name has a dot and the lowered text after the last one is whitelisted. */
  predicate AllowedFile(name: string) {
    '.' in name && Lower(AfterLast(name, '.')) in AllowedExtensions
  }

  /** The whitelist is written in lower case. */
  lemma ExtensionsAreLower()
    ensures forall e :: e in AllowedExtensions ==> Lower(e) == e && e != "" && '.' !in e
  {
    assert Lower("png") == "png" && Lower("jpg") == "jpg" && Lower("jpeg") == "jpeg";
    assert Lower("gif") == "gif" && Lower("bmp") == "bmp" && Lower("webp") == "webp";
    assert Lower("pdf") == "pdf";
  }

  /** Whatever comes before the last dot is irrelevant: `base + "." + ext` is accepted exactly
      when the lowered `ext` is whitelisted. */
  lemma AllowedFileOfSplit(base: string, ext: string)
    requires '.' !in ext
    ensures AllowedFile(base + "." + ext) <==> Lower(ext) in AllowedExtensions
  {
    AfterLastOfJoin(base, '.', ext);
  }

  /** The check ignores the case of the name, and a name without a dot is rejected whatever
      it ends with. */
  lemma AllowedFileIgnoresCase(name: string)
    ensures AllowedFile(Lower(name)) <==> AllowedFile(name)
    ensures '.' !in name ==> !AllowedFile(name)
  {
    LowerKeepsChar(name, '.');
    if '.' in name {
      AfterLastLower(name, '.');
      LowerIdempotent(AfterLast(name, '.'));
    }
  }

  // The model table

  /** The environment variables app.py reads for the model table; `None` when unset. */
  datatype Env = Env(
    apiUrl: Option<string>, apiKey: Option<string>, model: Option<string>,
    hfApiUrl: Option<string>, hfApiKey: Option<string>, hfModel: Option<string>)

  /** One entry of `MODELS`. */
  datatype ModelConfig = ModelConfig(id: string, name: string, apiUrl: Option<string>, apiKey: Option<string>, model: string)

  const LocalModelId := "qwen2-vl-32b"
  const HfModelId := "qwen2.5-vl-7b"
  const HfDefaultUrl := "https://router.huggingface.co/v1/chat/completions"
  const HfDefaultModel := "Qwen/Qwen2.5-VL-7B-Instruct:hyperbolic"

  /** `MODELS`, in declaration order. */
  function Models(env: Env): seq<ModelConfig> {
    [ ModelConfig(LocalModelId, "Qwen2-VL 32B (Local)", env.apiUrl, env.apiKey, env.model.GetOr(DefaultModel)),
      ModelConfig(HfModelId, "Qwen2.5-VL 7B (Hugging Face)", Some(env.hfApiUrl.GetOr(HfDefaultUrl)),
        env.hfApiKey, env.hfModel.GetOr(HfDefaultModel)) ]
  }

  /** `bool(config['api_key'])`: the key is set and not empty. */
  predicate Configured(c: ModelConfig) {
    c.apiKey.Some? && c.apiKey.value != ""
  }

  /** `MODELS.get(id)`. */
  function FindModel(ms: seq<ModelConfig>, id: string): (r: Option<ModelConfig>)
    ensures r.None? <==> forall i :: 0 <= i < |ms| ==> ms[i].id != id
    ensures r.Some? ==> r.value in ms && r.value.id == id
  {
    if ms == [] then None
    else if ms[0].id == id then Some(ms[0])
    else
      var rest := FindModel(ms[1..], id);
      assert forall i :: 1 <= i < |ms| ==> ms[1..][i - 1] == ms[i];
      assert rest.Some? ==> rest.value in ms;
      rest
  }

  function Ids(ms: seq<ModelConfig>): (ids: seq<string>)
    ensures |ids| == |ms| && forall i :: 0 <= i < |ms| ==> ids[i] == ms[i].id
  {
    seq(|ms|, i requires 0 <= i < |ms| => ms[i].id)
  }

  // POST /api/ocr

  /** The parts of the multipart request the endpoint reads: the file name of the `file` part
      (absent when there is no such part), and the `model_id`, `prompt` and `dpi` form fields. */
  datatype Form = Form(file: Option<string>, modelId: Option<string>, prompt: Option<string>, dpi: Option<string>)

  /** An HTTP reply, and the name the upload was written under before replying, if it was. */
  datatype Reply = Reply(status: int, body: Value, saved: Option<string>)

  const DefaultPrompt := "OCR this image and extract all text."
  const DefaultDpi := 200

  /** `int(request.form.get('dpi', 200))`: the default when the field is absent, otherwise the
      field read as a Python `int`; `None` where `int()` raises. */
  function FormDpi(form: Form): (r: Option<int>)
    ensures form.dpi.None? ==> r == Some(DefaultDpi)
    ensures form.dpi == Some("") ==> r.None?
    ensures form.dpi.Some? && r.Some? ==> |form.dpi.value| > 0 && IsDigit(form.dpi.value[|form.dpi.value| - 1])
  {
    if form.dpi.None? then Some(DefaultDpi) else ParseInt(form.dpi.value)
  }

  /** A DPI written the way Python prints integers is read back as that number. */
  lemma WrittenDpiIsUsed(form: Form, n: int)
    requires form.dpi == Some(IntToString(n))
    ensures FormDpi(form) == Some(n)
  {
    ParseIntRoundTrip(n);
  }

  function SelectedModelId(form: Form): string {
    form.modelId.GetOr(LocalModelId)
  }

  function NotAllowedMessage(): string {
    "File type not allowed. Allowed types: " + Join(AllowedExtensions, ", ")
  }

  function InvalidModelMessage(id: string, ms: seq<ModelConfig>): string {
    "Invalid model_id: " + id + ". Available models: " + Join(Ids(ms), ", ")
  }

  function NotConfiguredMessage(c: ModelConfig): string {
    "Model " + c.name + " is not configured. Missing API key."
  }

  /** `{'success': False, 'error': message}` */
  function FailureBody(message: string): Value {
    Object([Member("success", Bool(false)), Member("error", Str(message))])
  }

  /** The requirements an upload must meet before it is saved, stated without their order. */
  predicate Accepted(form: Form, ms: seq<ModelConfig>) {
    && form.file.Some? && form.file.value != "" && AllowedFile(form.file.value)
    && (exists i :: 0 <= i < |ms| && ms[i].id == SelectedModelId(form))
    && Configured(FindModel(ms, SelectedModelId(form)).value)
  }

  /** The checks of `ocr()` before the upload is saved, in their order: the first one that
      fails answers the request. */
  function Rejection(form: Form, ms: seq<ModelConfig>): (r: Option<Reply>)
    ensures r.None? <==> Accepted(form, ms)
    ensures r.Some? ==> r.value.saved.None? && (r.value.status == 400 || r.value.status == 500)
    ensures form.file.None? ==> r == Some(Reply(400, ErrorObject("No file uploaded"), None))
    ensures form.file == Some("") ==> r == Some(Reply(400, ErrorObject("No file selected"), None))
    ensures form.file.Some? && form.file.value != "" && !AllowedFile(form.file.value) ==>
      r == Some(Reply(400, ErrorObject(NotAllowedMessage()), None))
    ensures form.file.Some? && AllowedFile(form.file.value) && FindModel(ms, SelectedModelId(form)).None? ==>
      r == Some(Reply(400, FailureBody(InvalidModelMessage(SelectedModelId(form), ms)), None))
    ensures form.file.Some? && AllowedFile(form.file.value) && FindModel(ms, SelectedModelId(form)).Some? &&
            !Configured(FindModel(ms, SelectedModelId(form)).value) ==>
      r == Some(Reply(500, FailureBody(NotConfiguredMessage(FindModel(ms, SelectedModelId(form)).value)), None))
    ensures r.Some? && r.value.status == 500 ==>
      FindModel(ms, SelectedModelId(form)).Some? && !Configured(FindModel(ms, SelectedModelId(form)).value)
  {
    if form.file.None? then Some(Reply(400, ErrorObject("No file uploaded"), None))
    else if form.file.value == "" then Some(Reply(400, ErrorObject("No file selected"), None))
    else if !AllowedFile(form.file.value) then Some(Reply(400, ErrorObject(NotAllowedMessage()), None))
    else
      var id := SelectedModelId(form);
      match FindModel(ms, id)
      case None => Some(Reply(400, FailureBody(InvalidModelMessage(id, ms)), None))
      case Some(c) =>
        if !Configured(c) then Some(Reply(500, FailureBody(NotConfiguredMessage(c)), None))
        else None
  }

  /** Without a `model_id` the local model is used, so with an acceptable file the request
      proceeds exactly when `API_KEY` is set and not empty, and is otherwise refused with 500. */
  lemma DefaultModelNeedsApiKey(form: Form, env: Env)
    requires form.file.Some? && form.file.value != "" && AllowedFile(form.file.value) && form.modelId.None?
    ensures Rejection(form, Models(env)).None? <==> env.apiKey.Some? && env.apiKey.value != ""
    ensures Rejection(form, Models(env)).Some? ==>
      Rejection(form, Models(env)).value ==
        Reply(500, FailureBody(NotConfiguredMessage(Models(env)[0])), None)
  {
    assert FindModel(Models(env), LocalModelId) == Some(Models(env)[0]);
  }

  /** `ext` in `ocr()` (app.py:121): the lowered text after the last dot of the original name. */
  function OriginalExt(original: string): (r: string)
    ensures '.' !in r
  {
    if '.' in original then
      LowerKeepsChar(AfterLast(original, '.'), '.');
      Lower(AfterLast(original, '.'))
    else ""
  }

  /** The name an upload is saved under: the `secure_filename` result, given back the
      original's extension when sanitising left it without a dot. */
  function RestoreExtension(original: string, secured: string): (r: string)
    ensures secured != "" && '.' in secured ==> r == secured
    ensures OriginalExt(original) == "" ==> r == secured
    ensures '.' !in secured && OriginalExt(original) != "" ==>
      '.' in r && BeforeLast(r, '.') == StemOf(secured) && AfterLast(r, '.') == OriginalExt(original)
  {
    if secured == "" || '.' !in secured then
      var ext := OriginalExt(original);
      if ext != "" then
        SplitOfJoin(StemOf(secured), '.', ext);
        StemOf(secured) + "." + ext
      else secured
    else secured
  }

  /** `filename or 'file'` */
  function StemOf(secured: string): string {
    if secured == "" then "file" else secured
  }

  /** `file_ext` in `ocr()`: the text after the last dot of the lowered name, or "". */
  function FileExt(filename: string): (r: string)
    ensures r == (if '.' in filename then Lower(AfterLast(filename, '.')) else "")
  {
    if '.' in filename then
      AfterLastLower(filename, '.');
      AfterLast(Lower(filename), '.')
    else ""
  }

  /** An accepted upload keeps its type through sanitising: when `secure_filename` leaves no
      dot, the saved name carries the original's lowered extension, so it is still allowed and
      is processed as what it was uploaded as. */
  lemma RestoredNameKeepsType(original: string, secured: string)
    requires AllowedFile(original) && '.' !in secured
    ensures FileExt(RestoreExtension(original, secured)) == Lower(AfterLast(original, '.'))
    ensures AllowedFile(RestoreExtension(original, secured))
  {
    ExtensionsAreLower();
    var ext := OriginalExt(original);
    assert ext == Lower(AfterLast(original, '.'));
    var r := RestoreExtension(original, secured);
    SplitAtLast(r, '.');
    LowerIdempotent(AfterLast(original, '.'));
    AllowedFileOfSplit(BeforeLast(r, '.'), ext);
  }

  /** What the processing step produced: the page list of a PDF, or one image's response. */
  datatype Processed = PdfPages(pages: seq<PageResult>) | ImageResponse(response: Value)

  /** `{'page': k, 'response': r}` */
  function PageJson(p: PageResult): Value {
    Object([Member("page", Int(p.page)), Member("response", p.response)])
  }

  function PagesJson(pages: seq<PageResult>): (r: seq<Value>)
    ensures |r| == |pages| && forall k :: 0 <= k < |pages| ==> r[k] == PageJson(pages[k])
  {
    seq(|pages|, k requires 0 <= k < |pages| => PageJson(pages[k]))
  }

  /** `response_data` of a processed upload. */
  function ResponseData(filename: string, p: Processed): Value {
    match p
    case PdfPages(pages) =>
      Object([
        Member("success", Bool(true)), Member("filename", Str(filename)), Member("type", Str("pdf")),
        Member("pages", Int(|pages|)), Member("results", Array(PagesJson(pages)))])
    case ImageResponse(v) =>
      Object([
        Member("success", Bool(true)), Member("filename", Str(filename)), Member("type", Str("image")),
        Member("results", Array([PageJson(PageResult(1, v))]))])
  }

  /** Runs the pipeline on the saved file: the PDF path when its extension is "pdf", the
      single-image path otherwise; a failure carries `str(e)` of the exception. */
  function ProcessUpload(path: string, ext: string, prompt: string, dpi: int, cfg: ApiConfig, io: Io): (r: Result<Processed, string>)
    ensures r.Success? ==> (r.value.PdfPages? <==> ext == "pdf")
    ensures r.Success? && r.value.PdfPages? ==> forall k :: 0 <= k < |r.value.pages| ==> r.value.pages[k].page == k + 1
    ensures ext == "pdf" ==> (r.Success? <==> ProcessPdf(path, prompt, dpi, cfg, io).Success?)
    ensures ext == "pdf" && r.Success? ==> r.value == PdfPages(ProcessPdf(path, prompt, dpi, cfg, io).value)
    ensures ext == "pdf" && r.Failure? ==> r.error == ProcessPdf(path, prompt, dpi, cfg, io).error
    ensures ext != "pdf" ==> (r.Success? <==> OcrImage(path, prompt, cfg, io).Success?)
    ensures ext != "pdf" && r.Success? ==> r.value == ImageResponse(OcrImage(path, prompt, cfg, io).value)
    ensures ext != "pdf" && r.Failure? ==> r.error == OcrImage(path, prompt, cfg, io).error
  {
    if ext == "pdf" then
      match ProcessPdf(path, prompt, dpi, cfg, io)
      case Failure(e) => Failure(e)
      case Success(pages) => Success(PdfPages(pages))
    else
      match OcrImage(path, prompt, cfg, io)
      case Failure(e) => Failure(e)
      case Success(v) => Success(ImageResponse(v))
  }

  /** `str(e)` of the `ValueError` raised by `int(s)` on a form value that is not an integer. */
  function BadIntMessage(s: string): string {
    "invalid literal for int() with base 10: " + Repr(Str(s))
  }

  /** The reply of the `except` branch: `{'success': False, 'error': str(e), 'traceback': None}`. */
  function ExceptionBody(message: string): (r: Value)
    ensures r.Object? && Get(r.members, "success") == Some(Bool(false))
    ensures Get(r.members, "error") == Some(Str(message))
  {
    var members := [Member("success", Bool(false)), Member("error", Str(message)), Member("traceback", Null)];
    GetUnrepeated(members, 0);
    GetUnrepeated(members, 1);
    Object(members)
  }

  /** `OCRApp(model_config['api_url'], model_config['api_key'], model_config['model'])`. */
  function ClientConfig(c: ModelConfig): ApiConfig
    requires c.apiKey.Some?
  {
    ApiConfig(c.apiUrl, c.apiKey.value, c.model)
  }

  /** `ocr()`: the checks, then save under the restored name, read the prompt and DPI, and run
      the PDF or image path on the saved file. `secure` is werkzeug's `secure_filename`;
      `folder` is `UPLOAD_FOLDER`. */
  function HandleOcr(form: Form, ms: seq<ModelConfig>, folder: string, secure: string -> string, io: Io): (r: Reply)
    ensures Rejection(form, ms).Some? ==> r == Rejection(form, ms).value
    ensures r.saved.Some? <==> Accepted(form, ms)
    ensures Accepted(form, ms) ==> r.saved == Some(RestoreExtension(form.file.value, secure(form.file.value)))
    ensures r.status == 200 || r.status == 400 || r.status == 500
    ensures Accepted(form, ms) ==> r.status == 200 || r.status == 500
    ensures Accepted(form, ms) && r.status == 500 ==>
      r.body.Object? && Get(r.body.members, "success") == Some(Bool(false)) && HasKey(r.body, "error")
    ensures Accepted(form, ms) && FormDpi(form).None? ==>
      form.dpi.Some? && r.status == 500 && r.body == ExceptionBody(BadIntMessage(form.dpi.value))
    ensures Accepted(form, ms) && FormDpi(form).Some? ==>
      var name := RestoreExtension(form.file.value, secure(form.file.value));
      var u := ProcessUpload(folder + "/" + name, FileExt(name), form.prompt.GetOr(DefaultPrompt), FormDpi(form).value,
                             ClientConfig(FindModel(ms, SelectedModelId(form)).value), io);
      && (r.status == 200 <==> u.Success?)
      && (u.Success? ==> r.body == ResponseData(name, u.value))
      && (u.Failure? ==> r.status == 500 && r.body == ExceptionBody(u.error))
  {
    match Rejection(form, ms)
    case Some(reply) => reply
    case None =>
      var original := form.file.value;
      var c := FindModel(ms, SelectedModelId(form)).value;
      var filename := RestoreExtension(original, secure(original));
      var path := folder + "/" + filename;
      var prompt := form.prompt.GetOr(DefaultPrompt);
      var dpi := FormDpi(form);
      if dpi.None? then Reply(500, ExceptionBody(BadIntMessage(form.dpi.value)), Some(filename))
      else
        var cfg := ClientConfig(c);
        match ProcessUpload(path, FileExt(filename), prompt, dpi.value, cfg, io)
        case Failure(e) => Reply(500, ExceptionBody(e), Some(filename))
        case Success(p) => Reply(200, ResponseData(filename, p), Some(filename))
  }

  /** A successful reply is a PDF reply exactly when the saved name ends in ".pdf" (in any
      case); a PDF reply's `pages` counts its `results`, numbered 1, 2, ...; an image reply
      holds exactly one result, for page 1. */
  lemma SuccessfulReplyShape(form: Form, ms: seq<ModelConfig>, folder: string, secure: string -> string, io: Io)
    requires HandleOcr(form, ms, folder, secure, io).status == 200
    ensures var r := HandleOcr(form, ms, folder, secure, io);
      && r.saved.Some? && r.body.Object?
      && Get(r.body.members, "success") == Some(Bool(true))
      && Get(r.body.members, "filename") == Some(Str(r.saved.value))
      && Get(r.body.members, "type") == Some(Str(if FileExt(r.saved.value) == "pdf" then "pdf" else "image"))
    ensures var r := HandleOcr(form, ms, folder, secure, io);
      var results := Get(r.body.members, "results");
      && results.Some? && results.value.Array?
      && (FileExt(r.saved.value) == "pdf" ==>
            Get(r.body.members, "pages") == Some(Int(|results.value.items|))
            && forall k :: 0 <= k < |results.value.items| ==> Walk(results.value.items[k], [Key("page")]) == Found(Int(k + 1)))
      && (FileExt(r.saved.value) != "pdf" ==>
            |results.value.items| == 1 && Walk(results.value.items[0], [Key("page")]) == Found(Int(1)))
  {
    var r := HandleOcr(form, ms, folder, secure, io);
    var c := FindModel(ms, SelectedModelId(form)).value;
    var filename := RestoreExtension(form.file.value, secure(form.file.value));
    var dpi := FormDpi(form);
    var cfg := ClientConfig(c);
    var p := ProcessUpload(folder + "/" + filename, FileExt(filename), form.prompt.GetOr(DefaultPrompt), dpi.value, cfg, io).value;
    assert r == Reply(200, ResponseData(filename, p), Some(filename));
    ResponseFields(filename, p);
  }

  lemma ResponseFields(filename: string, p: Processed)
    requires p.PdfPages? ==> forall k :: 0 <= k < |p.pages| ==> p.pages[k].page == k + 1
    ensures var body := ResponseData(filename, p);
      && Get(body.members, "success") == Some(Bool(true))
      && Get(body.members, "filename") == Some(Str(filename))
      && Get(body.members, "type") == Some(Str(if p.PdfPages? then "pdf" else "image"))
    ensures p.PdfPages? ==>
      var body := ResponseData(filename, p);
      && Get(body.members, "pages") == Some(Int(|p.pages|))
      && Get(body.members, "results") == Some(Array(PagesJson(p.pages)))
      && forall k :: 0 <= k < |p.pages| ==> Walk(PagesJson(p.pages)[k], [Key("page")]) == Found(Int(k + 1))
    ensures p.ImageResponse? ==>
      var body := ResponseData(filename, p);
      && Get(body.members, "results") == Some(Array([PageJson(PageResult(1, p.response))]))
      && Walk(PageJson(PageResult(1, p.response)), [Key("page")]) == Found(Int(1))
  {
    if p.PdfPages? {
      PdfFields(filename, p.pages);
    } else {
      ImageFields(filename, p.response);
    }
  }

  lemma PdfFields(filename: string, pages: seq<PageResult>)
    requires forall k :: 0 <= k < |pages| ==> pages[k].page == k + 1
    ensures var body := ResponseData(filename, PdfPages(pages));
      && Get(body.members, "success") == Some(Bool(true))
      && Get(body.members, "filename") == Some(Str(filename))
      && Get(body.members, "type") == Some(Str("pdf"))
      && Get(body.members, "pages") == Some(Int(|pages|))
      && Get(body.members, "results") == Some(Array(PagesJson(pages)))
    ensures forall k :: 0 <= k < |pages| ==> Walk(PagesJson(pages)[k], [Key("page")]) == Found(Int(k + 1))
  {
    var results := PagesJson(pages);
    var ms := [
      Member("success", Bool(true)), Member("filename", Str(filename)), Member("type", Str("pdf")),
      Member("pages", Int(|pages|)), Member("results", Array(results))];
    assert ResponseData(filename, PdfPages(pages)).members == ms;
    GetUnrepeated(ms, 0);
    GetUnrepeated(ms, 1);
    GetUnrepeated(ms, 2);
    GetUnrepeated(ms, 3);
    GetUnrepeated(ms, 4);
    PagesNumbered(pages);
  }

  /** Pages numbered 1, 2, ... keep their numbers as the `page` field of their records. */
  lemma PagesNumbered(pages: seq<PageResult>)
    requires forall k :: 0 <= k < |pages| ==> pages[k].page == k + 1
    ensures forall k :: 0 <= k < |pages| ==> Walk(PagesJson(pages)[k], [Key("page")]) == Found(Int(k + 1))
  {
    forall k | 0 <= k < |pages|
      ensures Walk(PagesJson(pages)[k], [Key("page")]) == Found(Int(k + 1))
    {
      PageField(pages[k]);
    }
  }

  lemma ImageFields(filename: string, response: Value)
    ensures var body := ResponseData(filename, ImageResponse(response));
      && Get(body.members, "success") == Some(Bool(true))
      && Get(body.members, "filename") == Some(Str(filename))
      && Get(body.members, "type") == Some(Str("image"))
      && Get(body.members, "results") == Some(Array([PageJson(PageResult(1, response))]))
    ensures Walk(PageJson(PageResult(1, response)), [Key("page")]) == Found(Int(1))
  {
    var ms := ResponseData(filename, ImageResponse(response)).members;
    assert Get(ms[..1], "success") == Some(Bool(true));
    assert Get(ms[..2], "filename") == Some(Str(filename));
    assert Get(ms[..3], "type") == Some(Str("image"));
    PageField(PageResult(1, response));
  }

  lemma PageField(p: PageResult)
    ensures Walk(PageJson(p), [Key("page")]) == Found(Int(p.page))
  {
    assert Get(PageJson(p).members[..1], "page") == Some(Int(p.page));
  }

  // GET /api/config

  /** One element of `available_models`. */
  function ModelEntry(c: ModelConfig): Value {
    Object([
      Member("id", Str(c.id)),
      Member("name", Str(c.name)),
      Member("configured", Bool(Configured(c))),
      Member("api_url", if !Configured(c) then Str("NOT_CONFIGURED")
                        else if c.apiUrl.Some? then Str(c.apiUrl.value) else Null)])
  }

  function ModelEntries(ms: seq<ModelConfig>): (r: seq<Value>)
    ensures |r| == |ms| && forall i :: 0 <= i < |ms| ==> r[i] == ModelEntry(ms[i])
  {
    seq(|ms|, i requires 0 <= i < |ms| => ModelEntry(ms[i]))
  }

  /** `any(m['configured'] for m in available_models)`, read off the entries as the source does. */
  function AnyConfigured(entries: seq<Value>): (r: bool)
    ensures r <==> exists i :: 0 <= i < |entries| && entries[i].Object? && Get(entries[i].members, "configured") == Some(Bool(true))
  {
    if entries == [] then false
    else
      var rest := AnyConfigured(entries[1..]);
      assert forall i :: 1 <= i < |entries| ==> entries[1..][i - 1] == entries[i];
      (entries[0].Object? && Get(entries[0].members, "configured") == Some(Bool(true))) || rest
  }

  /** The body of `GET /api/config`. */
  function ConfigSummary(ms: seq<ModelConfig>): Value {
    var entries := ModelEntries(ms);
    Object([
      Member("models", Array(entries)),
      Member("max_file_size", Str("16MB")),
      Member("allowed_extensions", Array(seq(|AllowedExtensions|, i requires 0 <= i < |AllowedExtensions| => Str(AllowedExtensions[i])))),
      Member("status", Str(if AnyConfigured(entries) then "ready" else "missing_config"))])
  }

  /** The fields of one entry: `configured` says whether the model has a key, and `api_url`
      shows the endpoint only then. */
  lemma EntryFields(c: ModelConfig)
    ensures Get(ModelEntry(c).members, "id") == Some(Str(c.id))
    ensures Get(ModelEntry(c).members, "configured") == Some(Bool(Configured(c)))
    ensures !Configured(c) ==> Get(ModelEntry(c).members, "api_url") == Some(Str("NOT_CONFIGURED"))
    ensures Configured(c) && c.apiUrl.Some? ==> Get(ModelEntry(c).members, "api_url") == Some(Str(c.apiUrl.value))
  {
    var ms := ModelEntry(c).members;
    assert Get(ms[..1], "id") == Some(Str(c.id));
    assert Get(ms[..3], "configured") == Some(Bool(Configured(c)));
  }

  /** The summary is "ready" exactly when some model has a non-empty API key. */
  lemma StatusReadyIffConfigured(ms: seq<ModelConfig>)
    ensures var s := ConfigSummary(ms);
      Get(s.members, "status") == Some(Str(if exists i :: 0 <= i < |ms| && Configured(ms[i]) then "ready" else "missing_config"))
  {
    var entries := ModelEntries(ms);
    forall i | 0 <= i < |ms|
      ensures entries[i].Object? && (Get(entries[i].members, "configured") == Some(Bool(true)) <==> Configured(ms[i]))
    {
      EntryFields(ms[i]);
    }
    if exists i :: 0 <= i < |ms| && Configured(ms[i]) {
      var i :| 0 <= i < |ms| && Configured(ms[i]);
      assert entries[i].Object? && Get(entries[i].members, "configured") == Some(Bool(true));
    }
  }

  /** Each model's `api_url` is hidden behind "NOT_CONFIGURED" unless the model has a key. */
  lemma ApiUrlShownOnlyWhenConfigured(ms: seq<ModelConfig>, i: nat)
    requires i < |ms|
    ensures var path := [Key("models"), Index(i), Key("api_url")];
      && (!Configured(ms[i]) ==> Walk(ConfigSummary(ms), path) == Found(Str("NOT_CONFIGURED")))
      && (Configured(ms[i]) && ms[i].apiUrl.Some? ==> Walk(ConfigSummary(ms), path) == Found(Str(ms[i].apiUrl.value)))
  {
    ModelsPath(ms, i);
    EntryFields(ms[i]);
    WalkAppend(ConfigSummary(ms), [Key("models"), Index(i)], [Key("api_url")]);
    assert [Key("models"), Index(i)] + [Key("api_url")] == [Key("models"), Index(i), Key("api_url")];
  }

  /** `models[i]` of the summary is the entry of the i-th model. */
  lemma ModelsPath(ms: seq<ModelConfig>, i: nat)
    requires i < |ms|
    ensures Walk(ConfigSummary(ms), [Key("models"), Index(i)]) == Found(ModelEntry(ms[i]))
  {
    var s := ConfigSummary(ms);
    var entries := ModelEntries(ms);
    GetUnrepeated(s.members, 0);
    assert Subscript(s, Key("models")) == Found(Array(entries));
    assert Walk(Array(entries), [Index(i)]) == Found(ModelEntry(ms[i]));
  }

  /** With the environment unset, no model has a key and the summary reports "missing_config";
      the Hugging Face entry still names its default endpoint internally but shows "NOT_CONFIGURED". */
  lemma EmptyEnvironmentIsMissingConfig()
    ensures var s := ConfigSummary(Models(Env(None, None, None, None, None, None)));
      Get(s.members, "status") == Some(Str("missing_config"))
  {
    var ms := Models(Env(None, None, None, None, None, None));
    StatusReadyIffConfigured(ms);
    assert !Configured(ms[0]) && !Configured(ms[1]);
  }
}

=== FILE: wrappers.dfy ===
/** Failure-compatible result types shared by every module of the OCR model.
    A Python exception that propagates to a caller is modelled as `Failure(message)`,
    where `message` is what `str(e)` would print. */
module Wrappers {

  datatype Option<+T> = None | Some(value: T) {

    /** The carried value, or `default` when there is none (Python's `dict.get(k, default)`). */
    function GetOr(default: T): T {
      match this
      case Some(v) => v
      case None => default
    }
  }

  datatype Result<+R, +E> = Success(value: R) | Failure(error: E)
}
